=== FILE: README.md ===
# Incremental CMS "Hospitals" mirror, modelled in Dafny

`main.py` mirrors the CMS Provider Data catalog incrementally. One run loads a
checkpoint (`metadata.json`, dataset identifier to the last recorded
`modified` date), fetches the catalog, keeps the datasets with a theme
containing `Hospitals` whose `modified` date is newer than the checkpoint,
downloads the first CSV distribution of each through a pool of five workers,
renames the CSV columns to snake case, writes each file as
`<snake-case title>-<identifier>.csv`, and finally records every selected
dataset's date in the checkpoint.

The Dafny project models the decision-making core of that run as pure
functions and proves what it promises:

- `wrappers.dfy` (`Wrappers`): `Option`, and `dict.get` on maps with its behaviour after an update.
- `snake.dfy` (`SnakeCase`): `to_snake_case` as its four steps (ASCII
  `lower()`, `re.sub(r"[^a-zA-Z0-9]+", "_")`, `re.sub(r"_+", "_")`,
  `strip("_")`), proved equal to an independent definition: the alphanumeric
  words of the lower-cased label joined by `_`. Idempotence and the exact set
  of outputs follow.
- `dates.dfy` (`Dates`): `datetime.strptime(s, "%Y-%m-%d").date()` with the
  regular expression Python's `_strptime` builds for that format (an unpadded
  month or day, or a blank-padded day, is accepted, leftover characters are
  refused, impossible calendar dates are refused), `date.isoformat()`, and
  date `<=`. The exact set of accepted strings is proved, and the written
  watermark reads back as the date it was written from.
- `selector.dfy` (`Selector`): the catalog loop that builds `to_download`,
  as a pure function of the catalog and the loaded metadata, with the exact
  conditions under which a dataset is selected, in both directions.
- `checkpoint.dfy` (`Checkpoint`): the final watermark loop as written, which
  records every selected dataset whatever its download returned, and the
  corrected loop that records only successful downloads.
- `naming.dfy` (`Naming`): the output file name and the column renaming.
- `pipeline.dfy` (`Pipeline`): one whole run, re-running against an unchanged
  catalog, and worked cases. With distinct catalog identifiers a second run
  selects nothing, whatever the first run's downloads did
  (`Pipeline.RerunSelectsNothing`). When two selected entries share an
  identifier and the later one is older, that guarantee is lost: the next run
  downloads the newer entry once more and records its date
  (`Pipeline.DuplicateIdsDefeatRerun`).

Inputs the program reads from the outside world are parameters: the catalog is
a `seq<Dataset>`, the checkpoint a `map<string, string>`, and what each
`process_csv` call returned is a `seq<bool>` of outcomes.

The model follows the code as written. `process_csv` reports whether its
download succeeded, yet the code advances the watermark of every selected
dataset; the model keeps that commit and states the one that records only
successful downloads beside it (see Findings). The code overwrites
`metadata.json` in place and lets `json.load` fail on a corrupt file; neither
an atomic write nor a recovery is modelled.

## Model

| member | source | states |
|---|---|---|
| SnakeCase.Snake | main.py:14-18 | The normalised label is the ASCII alphanumeric words of the lower-cased label joined by single `_`; it uses only `[a-z0-9_]`, has no `_` at either end, never two `_` in a row, and no `-` |
| SnakeCase.SnakeSteps | main.py:16-18 | The substitution, the collapse and the strip, applied in the source's order to a lower-cased label, give exactly its words joined by `_` |
| SnakeCase.SnakeIdempotent | main.py:14-18 | Normalising an already normalised label returns it unchanged |
| SnakeCase.SnakeFixesCanonical | main.py:14-18 | Every string of the canonical shape is its own normal form, so the possible outputs are exactly the canonical strings |
| SnakeCase.CollapseIsRedundant | main.py:16-17 | The second substitution (`_+` to `_`) never changes the output of the first one |
| SnakeCase.SnakeOfLowerIsSnake | main.py:16 | Labels that differ only in letter case normalise to the same name |
| SnakeCase.ReplaceLeavesNoDoubleUnderscore | main.py:16 | After replacing runs of non-alphanumerics by `_` no two `_` are adjacent |
| SnakeCase.StripLeftSubRuns | main.py:16-18 | Stripping leading `_` from the substitution's output equals running the substitution as if a run had already begun |
| SnakeCase.StripRightWords | main.py:16-18 | Stripping trailing `_` from that output yields the words joined by `_` |
| SnakeCase.CanonicalJoinWords | main.py:18 | A canonical string is the `_`-join of its own words |
| Dates.ParseYmd | main.py:72 | An accepted string has 8 to 10 characters, four leading digits that give the year, and `-` after them; every refusal is `None` (the `ValueError` branch) |
| Dates.ParseYmdExactly | main.py:72 | A string parses to a date exactly when it spells that date: four year digits, `-`, the month as two digits or (below 10) one digit, `-`, the day as two digits or (below 10) one digit or a blank and one digit, and nothing after |
| Dates.ParseSpelling | main.py:72 | Every such spelling of a valid date parses to that date |
| Dates.ParseGivesSpelling | main.py:72 | Every accepted string is a spelling of the date it parses to |
| Dates.IsoFormat | main.py:106 | `isoformat()` always writes the exact `DDDD-DD-DD` digit shape |
| Dates.LessEq | main.py:79 | `a <= b` on dates holds exactly when `a`'s position in the calendar is not after `b`'s |
| Dates.Before | main.py:79 | `a < b`, the negation of the `<=` test that skips a dataset, holds exactly when `a`'s position is before `b`'s |
| Dates.ParseIsoFormat | main.py:106 | The watermark written with `isoformat()` is read back by the parser of line 77 as the very same date |
| Dates.ParseIsoShapedIsCanonical | main.py:72 | Any accepted string of the exact `DDDD-DD-DD` shape is the `isoformat()` of the date it parses to |
| Dates.ParseAcceptsUnpadded | main.py:72 | `2024-3-1`, `2024-03- 1` and `2024-03-01` all parse to 1 March 2024 |
| Dates.ParseRejectsMissingDates | main.py:72 | 29 February of a common year and year 0 are refused |
| Dates.ParseRejectsMalformed | main.py:72 | Month 13, day 32, a trailing time of day and the empty string are refused |
| Dates.LessEqTotalOrder | main.py:79 | Date `<=` is reflexive, total, antisymmetric and transitive, and `a <= b` holds exactly when `b < a` does not |
| Dates.ValueOfZeroPad | main.py:106 | Zero-padding a number below `10^width` and reading the digits back gives the number |
| Dates.ZeroPadValueOf | main.py:72 | A digit string is the zero-padded form of its value, which is below `10^length` |
| Dates.IsoFormatOfDigits | main.py:106 | A date built from a string's digit groups formats back to exactly those digits |
| Selector.Contains | main.py:64 | Python's `p in t` is true exactly when `p` occurs in `t` at some index |
| Selector.AnyThemeMatches | main.py:63-64 | True exactly when some theme contains `Hospitals` (case-sensitive); an entry without themes never matches |
| Selector.FirstCsvUrl | main.py:87-91 | `None` exactly when no distribution has media type `text/csv`; otherwise the download URL of the first one |
| Selector.FirstCsvUrlUnique | main.py:87-91 | There is only one first CSV distribution |
| Selector.Decide | main.py:62-91 | A dataset yields a task only if a theme contains `Hospitals`, its `modified` is present, non-empty and parses, its stored watermark is absent, empty, or parses to a strictly older date, and it has a CSV distribution, whose URL, the identifier, the date and the title (default `untitled`) form that task; conversely every dataset meeting all of these yields a task |
| Selector.Select | main.py:60-91 | At most one task per catalog dataset |
| Selector.SelectSource | main.py:60-91 | Every entry of `to_download` is what some catalog dataset yields, and the lemma returns that dataset's position |
| Selector.SelectComplete | main.py:60-91 | Every task a catalog dataset yields is in `to_download` |
| Selector.SelectAppend | main.py:62 | The list follows catalog order: selecting from a concatenation concatenates the selections |
| Selector.SelectSingle | main.py:87-91 | A single dataset contributes exactly its decision: one task or nothing |
| Selector.DecideReadsOwnKey | main.py:74 | The decision for a dataset depends only on the metadata entry under its own identifier |
| Selector.NoTopicContributesNothing | main.py:63-64 | Removing a dataset none of whose themes contains `Hospitals` leaves the selection unchanged |
| Selector.SelectUniqueIds | main.py:66 | Distinct dataset identifiers in the catalog give distinct identifiers in `to_download` |
| Checkpoint.Record | main.py:105-106 | The loop adds exactly the selected identifiers to the keys |
| Checkpoint.RecordKeeps | main.py:105-106 | An identifier no task carries keeps its previous entry, or stays absent |
| Checkpoint.RecordLastWrite | main.py:105-106 | The entry of a task that no later task overwrites is the `isoformat()` of its date |
| Checkpoint.RecordOne | main.py:105-106 | Recording one task writes its watermark and nothing else |
| Checkpoint.RecordPairLastWins | main.py:105-106 | Of two tasks with one identifier, the later one's date is what remains |
| Checkpoint.Commit | main.py:93-107 | Nothing is saved exactly when nothing was selected; otherwise the saved metadata gains exactly the selected identifiers as keys |
| Checkpoint.CommitAdvancesEvery | main.py:98-106 | Every selected dataset that no later task with the same identifier overwrites has its watermark set to its date, whatever its download returned |
| Checkpoint.CommitKeepsOthers | main.py:104-106 | An identifier that was not selected keeps its entry, or stays absent |
| Checkpoint.CommitIgnoresOutcomes | main.py:98-102 | The saved checkpoint is the same for any outcomes of the downloads |
| Checkpoint.Successes | main.py:98-102 | Exactly the tasks whose `process_csv` returned `True`: each of them is in the list, and every list entry is one of them |
| Checkpoint.Failures | main.py:98-102 | Exactly the tasks whose `process_csv` returned `False`: each of them is in the list, and every list entry is one of them |
| Wrappers.GetUpdate | main.py:74-106 | After `metadata[identifier] = …`, `metadata.get` returns the new value for that identifier and the previous result for every other key |
| Checkpoint.KeepAllIds | main.py:105-106 | Filtering a task list by a set holding all its identifiers keeps the whole list |
| Checkpoint.RecordSuccesses | main.py:104-106 | Corrected loop: exactly the succeeded identifiers are added to the keys |
| Checkpoint.RecordSuccessesKeeps | main.py:104-106 | Corrected loop: an identifier no successful task carries keeps its previous entry or stays absent |
| Checkpoint.RecordSuccessesLastSuccess | main.py:104-106 | Corrected loop: a succeeded task that no later successful task overwrites leaves its date as the entry |
| Checkpoint.CommitSuccesses | main.py:93-107 | Corrected commit: nothing saved exactly when nothing was selected; otherwise exactly the succeeded identifiers are added to the keys |
| Checkpoint.CommitSuccessesDistinct | main.py:101-106 | With distinct identifiers, the corrected commit advances exactly the successful downloads and leaves every failed one as it was |
| Checkpoint.RecordSuccessesIsRecordOfSuccesses | main.py:105-106 | The corrected loop equals the source's loop run over the successful tasks only |
| Checkpoint.FailedDownloadStillAdvances | main.py:101-106 | One selected dataset whose download failed: the source saves its date anyway, the corrected commit saves nothing for it |
| Naming.OutputName | main.py:43 | The file name splits back at its first `-` into the normalised title and the identifier, before the `.csv` suffix |
| Naming.SplitJoined | main.py:43 | A title part without `-` joined to an identifier splits back into exactly those two parts |
| Naming.OutputNameInjective | main.py:42-43 | Two tasks get the same file name exactly when their normalised titles and identifiers agree |
| Naming.RenameColumns | main.py:38-39 | One output header per input header; header `i` becomes the alphanumeric words of the lower-cased header `i` joined by `_`, in canonical snake case |
| Naming.RenameColumnsIdempotent | main.py:38-39 | Renaming the columns of a renamed table changes nothing |
| Naming.RenameColumnsCanCollide | main.py:38-39 | Headers differing only in case are renamed to the same column name |
| Pipeline.Run | main.py:93-95 | A run saves nothing exactly when it selected nothing |
| Pipeline.NotReselectedAfterOwnDate | main.py:74-80 | A dataset whose own date is stored as its watermark is skipped |
| Pipeline.ReselectedAfterOlderWatermark | main.py:77-80 | A selected dataset is selected again when its watermark is replaced by a strictly older date |
| Pipeline.RecordEffectOnDataset | main.py:105-106 | With distinct catalog identifiers, recording the selected tasks whose identifiers are in a set drops exactly those datasets from the next decision and leaves the others unchanged |
| Pipeline.RerunAfterRecord | main.py:60-107 | With distinct catalog identifiers, re-selecting after recording those selected tasks whose identifiers are in a set yields exactly the remaining ones, in order |
| Pipeline.RerunSelectsNothing | main.py:60-107 | With distinct identifiers, a second run against the unchanged catalog selects nothing, whatever the downloads of the first run did |
| Pipeline.RerunRetriesFailures | main.py:98-106 | With distinct catalog identifiers and the corrected commit, the next run selects exactly the failed downloads, in catalog order |
| Pipeline.LaterDuplicateWins | main.py:105-106 | When two selected catalog entries share an identifier, the later entry's date is saved |
| Pipeline.DuplicateIdsDefeatRerun | main.py:105-106 | If that later entry is the older one, the newer entry is selected again on the next run |
| Pipeline.OutputNamesDistinct | main.py:42-43 | With distinct identifiers, all tasks of one run get distinct file names (paths and case-insensitive file systems are not modelled) |
| Pipeline.HospitalDatasetSelected | main.py:62-91 | A `Hospitals` dataset modified 2024-03-01 with one CSV and no watermark yields its task |
| Pipeline.HospitalDatasetScenario | main.py:60-107 | That dataset is selected once, the run saves `{"A": "2024-03-01"}` whatever the download did, and the next run selects nothing |
| Pipeline.PaymentsDatasetNeverSelected | main.py:63-64 | A dataset whose only theme is `Payments` is never selected |

## Left out

- The HTTP request for the catalog (main.py:55-58) is not modelled: the catalog is an input, and a failing request or non-JSON answer aborts the run.
- Reading and writing `metadata.json` (main.py:21-30) is not modelled: the loaded metadata is an input and the saved metadata an output. A corrupt file makes `json.load` raise and the run abort.
- `pd.read_csv`, `df.to_csv`, `os.makedirs` and `os.path.join` (main.py:36-44) are file and network I/O; only the header renaming and the file name are modelled. The file name is modelled without the `processed_csv/` directory prefix.
- pandas renaming of duplicate headers on read is not modelled: the headers are the renamed sequence as given.
- The worker pool (main.py:98-102) is replaced by one outcome bit per task. Which thread runs first cannot change the checkpoint, which the loop at main.py:105-106 writes afterwards in list order. Exceptions that escape `process_csv` (those not derived from `Exception`) are not modelled.
- `print` logging (main.py:45, 48, 82, 94) has no effect on the state and is left out.
- A dataset that passes the theme filter (main.py:64) but has no `identifier` (main.py:66), or whose first CSV distribution has no `downloadURL` (main.py:89), makes the source raise `KeyError` and abort; the model makes both fields required. For every other entry this loses nothing: the source never reads those fields there, and `Selector.Decide` returns `None` for a dataset without a `Hospitals` theme whatever its identifier, and reads only the first CSV distribution's URL.
- JSON values of unexpected types are not modelled: a `theme` that is not a list of strings, a `title` of `null` (which makes `process_csv` fail and return `False`), or a non-string stored watermark.
- SnakeCase.Lower: models `str.lower()` on ASCII only. Python also maps U+0130 and U+212A to the ASCII letters `i` (plus a combining dot) and `k`, which then survive the substitution; other non-ASCII characters are outside `[a-zA-Z0-9]` in both.
- Dates.ParseYmd: `\d` in Python's pattern also matches non-ASCII decimal digits; the model accepts ASCII digits only. Its own contract states the shape and year of accepted strings; the exact accepted language is stated by `Dates.ParseYmdExactly`.
- Pipeline.Run: keeps the source's commit (`Checkpoint.Commit`); the corrected commit is stated on its own in `Checkpoint.CommitSuccesses` and `Pipeline.RerunRetriesFailures`.

## Findings

| source | as written | input that shows it | evidently intended | confidence | as-written member | corrected member |
|---|---|---|---|---|---|---|
| main.py:101-106 | `process_csv` returns `True` or `False`, but `future.result()` discards it and the loop records the date of every selected dataset | one selected dataset `A`, modified 2024-03-01, whose `process_csv` returns `False` (download failed): `metadata.json` becomes `{"A": "2024-03-01"}`, so `A` is never retried until its catalog date changes | record the watermark only for datasets whose `process_csv` returned `True`, so a failed download is retried on the next run | medium; not executed | Checkpoint.FailedDownloadStillAdvances | Checkpoint.CommitSuccesses |

=== FILE: checkpoint.dfy ===
/** The checkpoint update at the end of `main` in main.py. After the worker
    pool has run, the loop `for _, identifier, modified_date, _ in to_download:
    metadata[identifier] = modified_date.isoformat()` advances the watermark of
    every selected dataset, and the metadata is saved once. An empty selection
    returns early and saves nothing. */
module Checkpoint {
  import opened Wrappers
  import opened Dates
  import opened Selector

  /** The identifiers of a list of tasks. */
  function Ids(tasks: seq<Task>): set<string> {
    set i | 0 <= i < |tasks| :: tasks[i].identifier
  }

  /** No later task carries the identifier of `tasks[i]`: its write is the one
      that survives. */
  predicate IsLastWrite(tasks: seq<Task>, i: int)
    requires 0 <= i < |tasks|
  {
    forall j :: i < j < |tasks| ==> tasks[j].identifier != tasks[i].identifier
  }

  /** The loop `metadata[identifier] = modified_date.isoformat()` over
      `tasks`, in order. It adds exactly the tasks' identifiers to the keys;
      what it stores is stated by `RecordKeeps` and `RecordLastWrite`. */
  function Record(metadata: Metadata, tasks: seq<Task>): (r: Metadata)
    ensures r.Keys == metadata.Keys + Ids(tasks)
    decreases |tasks|
  {
    if |tasks| == 0 then metadata
    else
      var t := tasks[0];
      IdsCons(tasks);
      Record(metadata[t.identifier := IsoFormat(t.modified)], tasks[1..])
  }

  lemma IdsCons(tasks: seq<Task>)
    requires |tasks| > 0
    ensures Ids(tasks) == {tasks[0].identifier} + Ids(tasks[1..])
  {
    var rest := tasks[1..];
    assert forall i :: 1 <= i < |tasks| ==> tasks[i] == rest[i - 1];
    assert forall i :: 0 <= i < |rest| ==> rest[i] == tasks[i + 1];
  }

  /** An identifier no task carries keeps its entry, or stays absent. */
  lemma {:induction false} RecordKeeps(metadata: Metadata, tasks: seq<Task>, k: string)
    requires k !in Ids(tasks)
    ensures Get(Record(metadata, tasks), k) == Get(metadata, k)
    decreases |tasks|
  {
    if |tasks| > 0 {
      var t := tasks[0];
      IdsCons(tasks);
      GetUpdate(metadata, k, t.identifier, IsoFormat(t.modified));
      RecordKeeps(metadata[t.identifier := IsoFormat(t.modified)], tasks[1..], k);
    }
  }

  /** For repeated identifiers the last write wins: the entry of a task that
      no later task overwrites is its date in ISO form. */
  lemma {:induction false} RecordLastWrite(metadata: Metadata, tasks: seq<Task>, i: int)
    requires 0 <= i < |tasks| && IsLastWrite(tasks, i)
    ensures Get(Record(metadata, tasks), tasks[i].identifier) == Some(IsoFormat(tasks[i].modified))
    decreases |tasks|
  {
    var t := tasks[0];
    var rest := tasks[1..];
    var next := metadata[t.identifier := IsoFormat(t.modified)];
    if i == 0 {
      assert t.identifier !in Ids(rest) by {
        assert forall j :: 0 <= j < |rest| ==> rest[j] == tasks[j + 1];
      }
      RecordKeeps(next, rest, t.identifier);
    } else {
      assert IsLastWrite(rest, i - 1) by {
        assert forall j :: 0 <= j < |rest| ==> rest[j] == tasks[j + 1];
      }
      RecordLastWrite(next, rest, i - 1);
    }
  }

  /** Recording a single task writes its watermark and nothing else. */
  lemma RecordOne(metadata: Metadata, t: Task)
    ensures Record(metadata, [t]) == metadata[t.identifier := IsoFormat(t.modified)]
  {
    assert [t][1..] == [];
  }

  /** Two writes to one identifier: the second one is what the metadata
      keeps. */
  lemma RecordPairLastWins(metadata: Metadata, t1: Task, t2: Task)
    requires t1.identifier == t2.identifier
    ensures Get(Record(metadata, [t1, t2]), t1.identifier) == Some(IsoFormat(t2.modified))
  {
    assert IsLastWrite([t1, t2], 1);
    RecordLastWrite(metadata, [t1, t2], 1);
  }

  /** The checkpoint step of `main`: `None` when nothing was selected (the
      early return, nothing saved), otherwise the metadata that is saved.
      `outcomes[i]` is the value `process_csv` returned for `tasks[i]`; the
      source discards it (`future.result()`). */
  function Commit(metadata: Metadata, tasks: seq<Task>, outcomes: seq<bool>): (r: Option<Metadata>)
    requires |outcomes| == |tasks|
    ensures r.None? <==> |tasks| == 0
    ensures r.Some? ==> r.value.Keys == metadata.Keys + Ids(tasks)
  {
    if |tasks| == 0 then None else Some(Record(metadata, tasks))
  }

  /** Every selected dataset that no later task with the same identifier
      overwrites has its watermark advanced, whatever its download returned. */
  lemma CommitAdvancesEvery(metadata: Metadata, tasks: seq<Task>, outcomes: seq<bool>, i: int)
    requires |outcomes| == |tasks| && 0 <= i < |tasks| && IsLastWrite(tasks, i)
    ensures Get(Commit(metadata, tasks, outcomes).value, tasks[i].identifier) == Some(IsoFormat(tasks[i].modified))
  {
    RecordLastWrite(metadata, tasks, i);
  }

  /** Identifiers that were not selected keep their entry, or stay absent. */
  lemma CommitKeepsOthers(metadata: Metadata, tasks: seq<Task>, outcomes: seq<bool>, k: string)
    requires |outcomes| == |tasks| > 0 && k !in Ids(tasks)
    ensures Get(Commit(metadata, tasks, outcomes).value, k) == Get(metadata, k)
  {
    RecordKeeps(metadata, tasks, k);
  }

  /** The saved checkpoint does not depend on which downloads succeeded. */
  lemma CommitIgnoresOutcomes(metadata: Metadata, tasks: seq<Task>, o1: seq<bool>, o2: seq<bool>)
    requires |o1| == |tasks| && |o2| == |tasks|
    ensures Commit(metadata, tasks, o1) == Commit(metadata, tasks, o2)
  {
  }

  // ---------------------------------------------------------------------
  // Filtering task lists

  /** Those tasks whose identifier is in `keys`, in order. */
  function KeepIds(tasks: seq<Task>, keys: set<string>): (r: seq<Task>)
    ensures forall t :: t in r <==> t in tasks && t.identifier in keys
    ensures UniqueTaskIds(tasks) ==> UniqueTaskIds(r)
    decreases |tasks|
  {
    if |tasks| == 0 then []
    else
      var rest := KeepIds(tasks[1..], keys);
      assert forall t :: t in tasks <==> t == tasks[0] || t in tasks[1..];
      assert UniqueTaskIds(tasks) ==> UniqueTaskIds(tasks[1..]) && forall t :: t in tasks[1..] ==> t.identifier != tasks[0].identifier by {
        if UniqueTaskIds(tasks) {
          forall t | t in tasks[1..] ensures t.identifier != tasks[0].identifier {
            var k :| 0 <= k < |tasks[1..]| && tasks[1..][k] == t;
            assert tasks[k + 1] == t;
          }
        }
      }
      if tasks[0].identifier in keys then [tasks[0]] + rest else rest
  }

  /** Keeping every identifier keeps the whole list. */
  lemma {:induction false} KeepAllIds(ts: seq<Task>, keys: set<string>)
    requires forall i :: 0 <= i < |ts| ==> ts[i].identifier in keys
    ensures KeepIds(ts, keys) == ts
    decreases |ts|
  {
    if |ts| > 0 {
      var tail := ts[1..];
      assert forall i :: 0 <= i < |tail| ==> tail[i].identifier in keys by {
        assert forall i :: 0 <= i < |tail| ==> tail[i] == ts[i + 1];
      }
      KeepAllIds(tail, keys);
      assert KeepIds(ts, keys) == [ts[0]] + tail;
      assert [ts[0]] + tail == ts;
    }
  }

  /** Those tasks whose identifier is not in `keys`, in order. */
  function DropIds(tasks: seq<Task>, keys: set<string>): (r: seq<Task>)
    ensures forall t :: t in r <==> t in tasks && t.identifier !in keys
    decreases |tasks|
  {
    if |tasks| == 0 then []
    else
      var rest := DropIds(tasks[1..], keys);
      assert forall t :: t in tasks <==> t == tasks[0] || t in tasks[1..];
      if tasks[0].identifier in keys then rest else [tasks[0]] + rest
  }

  /** Those tasks whose download succeeded (`outcomes[i]` belongs to
      `tasks[i]`), in order. */
  function Successes(tasks: seq<Task>, outcomes: seq<bool>): (r: seq<Task>)
    requires |outcomes| == |tasks|
    ensures forall i :: 0 <= i < |tasks| && outcomes[i] ==> tasks[i] in r
    ensures forall t :: t in r ==> exists i :: 0 <= i < |tasks| && outcomes[i] && tasks[i] == t
    decreases |tasks|
  {
    if |tasks| == 0 then []
    else
      var rest := Successes(tasks[1..], outcomes[1..]);
      assert forall i :: 1 <= i < |tasks| ==> tasks[i] == tasks[1..][i - 1] && outcomes[i] == outcomes[1..][i - 1];
      assert forall i :: 0 <= i < |tasks| - 1 ==> tasks[1..][i] == tasks[i + 1] && outcomes[1..][i] == outcomes[i + 1];
      if outcomes[0] then [tasks[0]] + rest else rest
  }

  /** Those tasks whose download failed, in order. */
  function Failures(tasks: seq<Task>, outcomes: seq<bool>): (r: seq<Task>)
    requires |outcomes| == |tasks|
    ensures forall i :: 0 <= i < |tasks| && !outcomes[i] ==> tasks[i] in r
    ensures forall t :: t in r ==> exists i :: 0 <= i < |tasks| && !outcomes[i] && tasks[i] == t
    decreases |tasks|
  {
    if |tasks| == 0 then []
    else
      var rest := Failures(tasks[1..], outcomes[1..]);
      assert forall i :: 1 <= i < |tasks| ==> tasks[i] == tasks[1..][i - 1] && outcomes[i] == outcomes[1..][i - 1];
      assert forall i :: 0 <= i < |tasks| - 1 ==> tasks[1..][i] == tasks[i + 1] && outcomes[1..][i] == outcomes[i + 1];
      if outcomes[0] then rest else [tasks[0]] + rest
  }

  /** Identifiers of successful tasks. */
  function SucceededIds(tasks: seq<Task>, outcomes: seq<bool>): set<string>
    requires |outcomes| == |tasks|
  {
    set i | 0 <= i < |tasks| && outcomes[i] :: tasks[i].identifier
  }

  /** With distinct identifiers, the positional split into successes and
      failures is the split by succeeded identifier. */
  lemma {:induction false} SplitByOutcome(tasks: seq<Task>, outcomes: seq<bool>, keys: set<string>)
    requires |outcomes| == |tasks|
    requires forall i :: 0 <= i < |tasks| ==> (tasks[i].identifier in keys <==> outcomes[i])
    ensures Successes(tasks, outcomes) == KeepIds(tasks, keys)
    ensures Failures(tasks, outcomes) == DropIds(tasks, keys)
    decreases |tasks|
  {
    if |tasks| > 0 {
      assert forall i :: 0 <= i < |tasks[1..]| ==> tasks[1..][i] == tasks[i + 1] && outcomes[1..][i] == outcomes[i + 1];
      SplitByOutcome(tasks[1..], outcomes[1..], keys);
    }
  }

  lemma SucceededIdsMatchOutcomes(tasks: seq<Task>, outcomes: seq<bool>)
    requires |outcomes| == |tasks| && UniqueTaskIds(tasks)
    ensures forall i :: 0 <= i < |tasks| ==> (tasks[i].identifier in SucceededIds(tasks, outcomes) <==> outcomes[i])
  {
  }

  // ---------------------------------------------------------------------
  // The commit that records only successful downloads

  /** The successful task `tasks[i]` is the last successful one with its
      identifier. */
  predicate IsLastSuccess(tasks: seq<Task>, outcomes: seq<bool>, i: int)
    requires |outcomes| == |tasks| && 0 <= i < |tasks|
  {
    outcomes[i] && forall j :: i < j < |tasks| && outcomes[j] ==> tasks[j].identifier != tasks[i].identifier
  }

  /** The corrected checkpoint loop: write the watermark of a task only
      when its download succeeded. It adds exactly the succeeded
      identifiers to the keys; what it stores is stated by
      `RecordSuccessesKeeps` and `RecordSuccessesLastSuccess`. */
  function RecordSuccesses(metadata: Metadata, tasks: seq<Task>, outcomes: seq<bool>): (r: Metadata)
    requires |outcomes| == |tasks|
    ensures r.Keys == metadata.Keys + SucceededIds(tasks, outcomes)
    decreases |tasks|
  {
    if |tasks| == 0 then metadata
    else
      var t := tasks[0];
      var next := if outcomes[0] then metadata[t.identifier := IsoFormat(t.modified)] else metadata;
      SucceededIdsCons(tasks, outcomes);
      RecordSuccesses(next, tasks[1..], outcomes[1..])
  }

  lemma SucceededIdsCons(tasks: seq<Task>, outcomes: seq<bool>)
    requires |outcomes| == |tasks| > 0
    ensures SucceededIds(tasks, outcomes) ==
      (if outcomes[0] then {tasks[0].identifier} else {}) + SucceededIds(tasks[1..], outcomes[1..])
  {
    var rest := tasks[1..];
    assert forall i :: 1 <= i < |tasks| ==> tasks[i] == rest[i - 1] && outcomes[i] == outcomes[1..][i - 1];
    assert forall i :: 0 <= i < |rest| ==> rest[i] == tasks[i + 1] && outcomes[1..][i] == outcomes[i + 1];
  }

  /** An identifier no successful task carries keeps its entry, or stays
      absent: in particular a failed download keeps its previous watermark. */
  lemma {:induction false} RecordSuccessesKeeps(metadata: Metadata, tasks: seq<Task>, outcomes: seq<bool>, k: string)
    requires |outcomes| == |tasks| && k !in SucceededIds(tasks, outcomes)
    ensures Get(RecordSuccesses(metadata, tasks, outcomes), k) == Get(metadata, k)
    decreases |tasks|
  {
    if |tasks| > 0 {
      var t := tasks[0];
      var next := if outcomes[0] then metadata[t.identifier := IsoFormat(t.modified)] else metadata;
      SucceededIdsCons(tasks, outcomes);
      RecordSuccessesKeeps(next, tasks[1..], outcomes[1..], k);
    }
  }

  /** The entry of a successful task that no later successful task
      overwrites is its date in ISO form. */
  lemma {:induction false} RecordSuccessesLastSuccess(metadata: Metadata, tasks: seq<Task>, outcomes: seq<bool>, i: int)
    requires |outcomes| == |tasks| && 0 <= i < |tasks| && IsLastSuccess(tasks, outcomes, i)
    ensures Get(RecordSuccesses(metadata, tasks, outcomes), tasks[i].identifier) == Some(IsoFormat(tasks[i].modified))
    decreases |tasks|
  {
    var t := tasks[0];
    var rest := tasks[1..];
    var next := if outcomes[0] then metadata[t.identifier := IsoFormat(t.modified)] else metadata;
    if i == 0 {
      assert t.identifier !in SucceededIds(rest, outcomes[1..]) by {
        assert forall j :: 0 <= j < |rest| ==> rest[j] == tasks[j + 1] && outcomes[1..][j] == outcomes[j + 1];
      }
      RecordSuccessesKeeps(next, rest, outcomes[1..], t.identifier);
    } else {
      assert IsLastSuccess(rest, outcomes[1..], i - 1) by {
        assert forall j :: 0 <= j < |rest| ==> rest[j] == tasks[j + 1] && outcomes[1..][j] == outcomes[j + 1];
      }
      RecordSuccessesLastSuccess(next, rest, outcomes[1..], i - 1);
    }
  }

  /** The corrected commit: like `Commit`, but only successful
      downloads advance their watermark. Nothing is saved when nothing was
      selected. */
  function CommitSuccesses(metadata: Metadata, tasks: seq<Task>, outcomes: seq<bool>): (r: Option<Metadata>)
    requires |outcomes| == |tasks|
    ensures r.None? <==> |tasks| == 0
    ensures r.Some? ==> r.value.Keys == metadata.Keys + SucceededIds(tasks, outcomes)
  {
    if |tasks| == 0 then None else Some(RecordSuccesses(metadata, tasks, outcomes))
  }

  /** With distinct identifiers, every failed download keeps its watermark and
      every successful one advances. */
  lemma CommitSuccessesDistinct(metadata: Metadata, tasks: seq<Task>, outcomes: seq<bool>)
    requires |outcomes| == |tasks| && |tasks| > 0 && UniqueTaskIds(tasks)
    ensures var r := CommitSuccesses(metadata, tasks, outcomes).value;
      && (forall i :: 0 <= i < |tasks| && !outcomes[i] ==>
            Get(r, tasks[i].identifier) == Get(metadata, tasks[i].identifier))
      && (forall i :: 0 <= i < |tasks| && outcomes[i] ==>
            Get(r, tasks[i].identifier) == Some(IsoFormat(tasks[i].modified)))
  {
    SucceededIdsMatchOutcomes(tasks, outcomes);
    forall i | 0 <= i < |tasks| && !outcomes[i]
      ensures Get(RecordSuccesses(metadata, tasks, outcomes), tasks[i].identifier) == Get(metadata, tasks[i].identifier)
    {
      RecordSuccessesKeeps(metadata, tasks, outcomes, tasks[i].identifier);
    }
    forall i | 0 <= i < |tasks| && outcomes[i]
      ensures Get(RecordSuccesses(metadata, tasks, outcomes), tasks[i].identifier) == Some(IsoFormat(tasks[i].modified))
    {
      RecordSuccessesLastSuccess(metadata, tasks, outcomes, i);
    }
  }

  /** Writing only successes is recording the list of successful tasks. */
  lemma {:induction false} RecordSuccessesIsRecordOfSuccesses(metadata: Metadata, tasks: seq<Task>, outcomes: seq<bool>)
    requires |outcomes| == |tasks|
    ensures RecordSuccesses(metadata, tasks, outcomes) == Record(metadata, Successes(tasks, outcomes))
    decreases |tasks|
  {
    if |tasks| > 0 {
      var next := if outcomes[0] then metadata[tasks[0].identifier := IsoFormat(tasks[0].modified)] else metadata;
      RecordSuccessesIsRecordOfSuccesses(next, tasks[1..], outcomes[1..]);
      if outcomes[0] {
        assert ([tasks[0]] + Successes(tasks[1..], outcomes[1..]))[1..] == Successes(tasks[1..], outcomes[1..]);
      }
    }
  }

  /** Where the two commits differ: a download that failed still has its
      watermark advanced by the source's commit, and not by the corrected one,
      so the source never retries it while the catalog date stays the same. */
  lemma FailedDownloadStillAdvances()
    ensures var task := Task("https://example.org/a.csv", "A", Ymd(2024, 3, 1), "A");
      && Commit(map[], [task], [false]) == Some(map["A" := "2024-03-01"])
      && CommitSuccesses(map[], [task], [false]) == Some(map[])
  {
    var task := Task("https://example.org/a.csv", "A", Ymd(2024, 3, 1), "A");
    IsoFormatExample();
    RecordOne(map[], task);
    assert SucceededIds([task], [false]) == {};
  }

  lemma IsoFormatExample()
    ensures IsoFormat(Ymd(2024, 3, 1)) == "2024-03-01"
  {
    PadYear2024();
    TwoDigits(3);
    TwoDigits(1);
    assert IsoFormat(Ymd(2024, 3, 1)) == "2024" + "-" + "03" + "-" + "01";
  }

  lemma PadYear2024()
    ensures ZeroPad(2024, 4) == "2024"
  {
    assert ZeroPad(2, 1) == "2";
    assert ZeroPad(20, 2) == "20";
    assert ZeroPad(202, 3) == "202";
  }
}

=== FILE: dates.dfy ===
/** Calendar dates as main.py handles them: `datetime.strptime(s, "%Y-%m-%d").date()`
    to read the catalog's `modified` field and the stored watermark,
    `date.isoformat()` to write the watermark back, and `<=` to compare. */
module Dates {
  import opened Wrappers

  datatype Ymd = Ymd(year: int, month: int, day: int)

  predicate IsLeapYear(y: int) {
    y % 4 == 0 && (y % 100 != 0 || y % 400 == 0)
  }

  function DaysInMonth(y: int, m: int): int
    requires 1 <= m <= 12
  {
    if m == 2 then (if IsLeapYear(y) then 29 else 28)
    else if m == 4 || m == 6 || m == 9 || m == 11 then 30
    else 31
  }

  /** A date Python's `datetime.date` can represent: years `MINYEAR` (1) to
      `MAXYEAR` (9999) of the proleptic Gregorian calendar. */
  predicate ValidYmd(d: Ymd) {
    && 1 <= d.year <= 9999
    && 1 <= d.month <= 12
    && 1 <= d.day <= DaysInMonth(d.year, d.month)
  }

  type Date = d: Ymd | ValidYmd(d) witness Ymd(1, 1, 1)

  /** The position of a date in a calendar whose months all have 31 days,
      counted from January 1 of year 0. Later dates have larger positions. */
  function DayIndex(d: Date): nat {
    (d.year * 12 + (d.month - 1)) * 31 + (d.day - 1)
  }

  /** `a <= b` on `datetime.date`, which compares `(year, month, day)`
      lexicographically. */
  function LessEq(a: Date, b: Date): (r: bool)
    ensures r <==> DayIndex(a) <= DayIndex(b)
  {
    || a.year < b.year
    || (a.year == b.year && a.month < b.month)
    || (a.year == b.year && a.month == b.month && a.day <= b.day)
  }

  /** `a < b` on `datetime.date`: `a` is strictly earlier than `b`. */
  function Before(a: Date, b: Date): (r: bool)
    ensures r <==> DayIndex(a) < DayIndex(b)
  {
    || a.year < b.year
    || (a.year == b.year && a.month < b.month)
    || (a.year == b.year && a.month == b.month && a.day < b.day)
  }

  // ---------------------------------------------------------------------
  // Decimal digits

  predicate IsDigit(c: char) { '0' <= c <= '9' }

  predicate AllDigits(s: string) {
    forall i :: 0 <= i < |s| ==> IsDigit(s[i])
  }

  function DigitValue(c: char): nat
    requires IsDigit(c)
  {
    c as int - '0' as int
  }

  function DigitChar(n: nat): char
    requires n < 10
  {
    ('0' as int + n) as char
  }

  function Pow10(n: nat): nat {
    if n == 0 then 1 else 10 * Pow10(n - 1)
  }

  /** The decimal value of a digit string, as `int()` reads it. */
  function ValueOf(s: string): nat
    requires AllDigits(s)
    decreases |s|
  {
    if |s| == 0 then 0 else 10 * ValueOf(s[..|s| - 1]) + DigitValue(s[|s| - 1])
  }

  /** The `width` lowest decimal digits of `n`, zero-padded on the left:
      `"%0*d" % (width, n)` whenever `n < 10^width`. */
  function ZeroPad(n: nat, width: nat): (r: string)
    ensures |r| == width && AllDigits(r)
  {
    if width == 0 then "" else ZeroPad(n / 10, width - 1) + [DigitChar(n % 10)]
  }

  lemma {:induction false} ValueOfZeroPad(n: nat, width: nat)
    requires n < Pow10(width)
    ensures ValueOf(ZeroPad(n, width)) == n
  {
    if width > 0 {
      var r := ZeroPad(n, width);
      assert r[..|r| - 1] == ZeroPad(n / 10, width - 1);
      ValueOfZeroPad(n / 10, width - 1);
    }
  }

  lemma {:induction false} ZeroPadValueOf(s: string)
    requires AllDigits(s)
    ensures ValueOf(s) < Pow10(|s|)
    ensures ZeroPad(ValueOf(s), |s|) == s
    decreases |s|
  {
    if |s| > 0 {
      var init := s[..|s| - 1];
      ZeroPadValueOf(init);
      var v := ValueOf(s);
      assert v / 10 == ValueOf(init) && v % 10 == DigitValue(s[|s| - 1]);
      assert s == init + [s[|s| - 1]];
    }
  }

  // ---------------------------------------------------------------------
  // Parsing with strptime's "%Y-%m-%d"

  /** A matched directive: its value and the number of characters it took. */
  datatype Field = Field(value: int, width: nat)

  /** The `%m` pattern of Python's `_strptime`, `1[0-2]|0[1-9]|[1-9]`, at
      position `i`. The alternatives are tried in order; the regex engine could
      backtrack from a two-character month to the one-character alternative,
      but that alternative needs a `-` where the first one saw a digit, so the
      first match is the only one that can succeed. */
  function MonthAt(s: string, i: nat): (r: Option<Field>)
    ensures r.Some? ==> 1 <= r.value.value <= 12 && 1 <= r.value.width <= 2
  {
    if i + 1 < |s| && s[i] == '1' && '0' <= s[i + 1] <= '2' then
      Some(Field(10 + DigitValue(s[i + 1]), 2))
    else if i + 1 < |s| && s[i] == '0' && '1' <= s[i + 1] <= '9' then
      Some(Field(DigitValue(s[i + 1]), 2))
    else if i < |s| && '1' <= s[i] <= '9' then
      Some(Field(DigitValue(s[i]), 1))
    else None
  }

  /** The `%d` pattern of Python's `_strptime`,
      `3[01]|[12]\d|0[1-9]|[1-9]| [1-9]`, at position `i`. It is the last
      directive of the format, so the first alternative that matches ends the
      match. `int()` ignores the leading blank of the last alternative. */
  function DayAt(s: string, i: nat): (r: Option<Field>)
    ensures r.Some? ==> 1 <= r.value.value <= 31 && 1 <= r.value.width <= 2
  {
    if i + 1 < |s| && s[i] == '3' && '0' <= s[i + 1] <= '1' then
      Some(Field(30 + DigitValue(s[i + 1]), 2))
    else if i + 1 < |s| && '1' <= s[i] <= '2' && IsDigit(s[i + 1]) then
      Some(Field(10 * DigitValue(s[i]) + DigitValue(s[i + 1]), 2))
    else if i + 1 < |s| && s[i] == '0' && '1' <= s[i + 1] <= '9' then
      Some(Field(DigitValue(s[i + 1]), 2))
    else if i < |s| && '1' <= s[i] <= '9' then
      Some(Field(DigitValue(s[i]), 1))
    else if i + 1 < |s| && s[i] == ' ' && '1' <= s[i + 1] <= '9' then
      Some(Field(DigitValue(s[i + 1]), 2))
    else None
  }

  /** `datetime.strptime(s, "%Y-%m-%d").date()`, with `None` for the
      `ValueError` cases: no match of the pattern, characters left over after
      the match ("unconverted data remains"), or a day, month or year that
      `datetime.date` refuses. */
  function ParseYmd(s: string): (r: Option<Date>)
    ensures r.Some? ==> 8 <= |s| <= 10 && s[4] == '-' && AllDigits(s[..4])
    ensures r.Some? ==> r.value.year == ValueOf(s[..4])
  {
    if |s| < 5 || !AllDigits(s[..4]) || s[4] != '-' then None
    else match MonthAt(s, 5)
      case None => None
      case Some(month) =>
        var p := 5 + month.width;
        if p >= |s| || s[p] != '-' then None
        else match DayAt(s, p + 1)
          case None => None
          case Some(day) =>
            if p + 1 + day.width != |s| then None
            else
              var d := Ymd(ValueOf(s[..4]), month.value, day.value);
              if ValidYmd(d) then Some(d) else None
  }

  /** `date.isoformat()`: `YYYY-MM-DD`, zero-padded. */
  function IsoFormat(d: Date): (r: string)
    ensures IsoShaped(r)
  {
    var r := ZeroPad(d.year, 4) + "-" + ZeroPad(d.month, 2) + "-" + ZeroPad(d.day, 2);
    assert r[..4] == ZeroPad(d.year, 4) && r[5..7] == ZeroPad(d.month, 2) && r[8..] == ZeroPad(d.day, 2);
    r
  }

  /** Strings of the exact form `DDDD-DD-DD` with decimal digits `D`. */
  predicate IsoShaped(s: string) {
    && |s| == 10
    && s[4] == '-' && s[7] == '-'
    && AllDigits(s[..4]) && AllDigits(s[5..7]) && AllDigits(s[8..])
  }

  // ---------------------------------------------------------------------
  // Round trips

  lemma TwoDigits(n: nat)
    requires n < 100
    ensures ZeroPad(n, 2) == [DigitChar(n / 10), DigitChar(n % 10)]
    ensures DigitValue(DigitChar(n / 10)) == n / 10
    ensures DigitValue(DigitChar(n % 10)) == n % 10
  {
    var q := n / 10;
    assert q < 10 && q % 10 == q && q / 10 == 0;
    assert ZeroPad(q, 1) == ZeroPad(0, 0) + [DigitChar(q)];
  }

  /** A written watermark reads back as the date it was written from. */
  lemma ParseIsoFormat(d: Date)
    ensures ParseYmd(IsoFormat(d)) == Some(d)
  {
    var s := IsoFormat(d);
    ValueOfZeroPad(d.year, 4);
    TwoDigits(d.month);
    TwoDigits(d.day);
    assert s[..4] == ZeroPad(d.year, 4);
    assert s[4] == '-' && s[7] == '-';
    MonthAtPadded(s, 5, d.month);
    DayAtPadded(s, 8, d.day);
  }

  /** A zero-padded month is read by the first two alternatives of `%m`. */
  lemma MonthAtPadded(s: string, i: nat, m: int)
    requires 1 <= m <= 12 && i + 1 < |s|
    requires s[i] == DigitChar(m / 10) && s[i + 1] == DigitChar(m % 10)
    ensures MonthAt(s, i) == Some(Field(m, 2))
  {
  }

  /** A zero-padded day is read by the first three alternatives of `%d`. */
  lemma DayAtPadded(s: string, i: nat, day: int)
    requires 1 <= day <= 31 && i + 1 < |s|
    requires s[i] == DigitChar(day / 10) && s[i + 1] == DigitChar(day % 10)
    ensures DayAt(s, i) == Some(Field(day, 2))
  {
  }

  /** On strings of the exact `YYYY-MM-DD` shape the parser is the inverse of
      `IsoFormat`: any such string it accepts is the ISO form of its date. */
  lemma ParseIsoShapedIsCanonical(s: string)
    requires IsoShaped(s) && ParseYmd(s).Some?
    ensures IsoFormat(ParseYmd(s).value) == s
  {
    ParseIsoShaped(s);
    IsoFormatOfDigits(ParseYmd(s).value, s[..4], s[5], s[6], s[8], s[9]);
    SplitTen(s);
  }

  /** A date whose fields are given by four year digits and two digits each
      for month and day formats back to exactly those digits. */
  lemma IsoFormatOfDigits(d: Date, y: string, m1: char, m2: char, d1: char, d2: char)
    requires |y| == 4 && AllDigits(y) && d.year == ValueOf(y)
    requires IsDigit(m1) && IsDigit(m2) && d.month == 10 * DigitValue(m1) + DigitValue(m2)
    requires IsDigit(d1) && IsDigit(d2) && d.day == 10 * DigitValue(d1) + DigitValue(d2)
    ensures IsoFormat(d) == y + "-" + [m1, m2] + "-" + [d1, d2]
  {
    ZeroPadValueOf(y);
    TwoDigitField(d.month, m1, m2);
    TwoDigitField(d.day, d1, d2);
  }

  lemma TwoDigitField(v: nat, a: char, b: char)
    requires IsDigit(a) && IsDigit(b) && v == 10 * DigitValue(a) + DigitValue(b)
    ensures ZeroPad(v, 2) == [a, b]
  {
    TwoDigits(v);
  }

  lemma SplitTen(s: string)
    requires |s| == 10
    ensures s == s[..4] + [s[4]] + [s[5], s[6]] + [s[7]] + [s[8], s[9]]
  {
  }

  /** The fields an `IsoShaped` string parses to. */
  lemma ParseIsoShaped(s: string)
    requires IsoShaped(s) && ParseYmd(s).Some?
    ensures IsDigit(s[5]) && IsDigit(s[6]) && IsDigit(s[8]) && IsDigit(s[9])
    ensures ParseYmd(s).value.month == 10 * DigitValue(s[5]) + DigitValue(s[6])
    ensures ParseYmd(s).value.day == 10 * DigitValue(s[8]) + DigitValue(s[9])
  {
    assert s[5..7][0] == s[5] && s[5..7][1] == s[6];
    assert s[8..][0] == s[8] && s[8..][1] == s[9];
  }

  /** Unlike a strict `YYYY-MM-DD` reader, the parser accepts an unpadded
      month or day and a blank-padded day, so several strings name one date. */
  lemma ParseAcceptsUnpadded()
    ensures ParseYmd("2024-3-1") == Some(Ymd(2024, 3, 1))
    ensures ParseYmd("2024-03- 1") == Some(Ymd(2024, 3, 1))
    ensures ParseYmd("2024-03-01") == Some(Ymd(2024, 3, 1))
  {
    YearValue2024();
    assert "2024-3-1"[..4] == "2024";
    assert "2024-03- 1"[..4] == "2024";
    assert "2024-03-01"[..4] == "2024";
  }

  lemma YearValue2024()
    ensures AllDigits("2024") && ValueOf("2024") == 2024
  {
    assert "2024"[..3] == "202" && "202"[..2] == "20" && "20"[..1] == "2" && "2"[..0] == "";
  }

  // ---------------------------------------------------------------------
  // The exact language of "%Y-%m-%d"

  /** The spellings of month `m` that `%m` reads: two digits, or a single
      digit below 10. */
  function MonthSpellings(m: int): set<string>
    requires 1 <= m <= 12
  {
    if m < 10 then {ZeroPad(m, 2), [DigitChar(m)]} else {ZeroPad(m, 2)}
  }

  /** The spellings of day `day` that `%d` reads: two digits, or below 10 a
      single digit or a blank followed by the digit. */
  function DaySpellings(day: int): set<string>
    requires 1 <= day <= 31
  {
    if day < 10 then {ZeroPad(day, 2), [DigitChar(day)], [' ', DigitChar(day)]} else {ZeroPad(day, 2)}
  }

  /** `s` names `d` in one of the forms the parser reads: four year digits,
      `-`, a month spelling, `-`, a day spelling, and nothing else. */
  predicate Spells(s: string, d: Date) {
    exists m, dd | m in MonthSpellings(d.month) && dd in DaySpellings(d.day) ::
      s == ZeroPad(d.year, 4) + "-" + m + "-" + dd
  }

  /** The parser accepts exactly the spellings of valid dates, and reads each
      as the date it spells. */
  lemma ParseYmdExactly(s: string, d: Date)
    ensures ParseYmd(s) == Some(d) <==> Spells(s, d)
  {
    if ParseYmd(s) == Some(d) {
      var m, dd := ParseGivesSpelling(s);
    }
    if Spells(s, d) {
      var m, dd :| m in MonthSpellings(d.month) && dd in DaySpellings(d.day) &&
        s == ZeroPad(d.year, 4) + "-" + m + "-" + dd;
      ParseSpelling(d, m, dd);
    }
  }

  /** Every spelling of a date parses to that date. */
  lemma ParseSpelling(d: Date, m: string, dd: string)
    requires m in MonthSpellings(d.month) && dd in DaySpellings(d.day)
    ensures ParseYmd(ZeroPad(d.year, 4) + "-" + m + "-" + dd) == Some(d)
  {
    var s := ZeroPad(d.year, 4) + "-" + m + "-" + dd;
    var p := 5 + |m|;
    ValueOfZeroPad(d.year, 4);
    assert s[..4] == ZeroPad(d.year, 4) && s[4] == '-';
    assert s[5..p] == m && s[p] == '-' && s[p + 1..] == dd;
    MonthAtSpelling(s, 5, d.month, m);
    DayAtSpelling(s, p + 1, d.day, dd);
  }

  lemma MonthAtSpelling(s: string, i: nat, month: int, m: string)
    requires 1 <= month <= 12 && m in MonthSpellings(month)
    requires i + |m| < |s| && s[i..i + |m|] == m && s[i + |m|] == '-'
    ensures MonthAt(s, i) == Some(Field(month, |m|))
  {
    TwoDigits(month);
    assert s[i] == m[0];
    if m == ZeroPad(month, 2) {
      assert s[i + 1] == m[1];
      MonthAtPadded(s, i, month);
    }
  }

  lemma DayAtSpelling(s: string, i: nat, day: int, dd: string)
    requires 1 <= day <= 31 && dd in DaySpellings(day)
    requires i <= |s| && s[i..] == dd
    ensures DayAt(s, i) == Some(Field(day, |dd|))
  {
    TwoDigits(day);
    assert s[i] == dd[0];
    if |dd| == 2 {
      assert s[i + 1] == dd[1];
      if dd == ZeroPad(day, 2) {
        DayAtPadded(s, i, day);
      }
    }
  }

  /** Every string the parser accepts spells the date it reads. */
  lemma ParseGivesSpelling(s: string) returns (m: string, dd: string)
    requires ParseYmd(s).Some?
    ensures var d := ParseYmd(s).value;
      && m in MonthSpellings(d.month) && dd in DaySpellings(d.day)
      && s == ZeroPad(d.year, 4) + "-" + m + "-" + dd
  {
    var d := ParseYmd(s).value;
    var month := MonthAt(s, 5).value;
    var p := 5 + month.width;
    var day := DayAt(s, p + 1).value;
    assert d.month == month.value && d.day == day.value;
    m := s[5..p];
    dd := s[p + 1..];
    MonthSpelled(s, 5);
    DaySpelled(s, p + 1);
    assert p + 1 + day.width == |s| && s[p + 1..p + 1 + day.width] == dd;
    ZeroPadValueOf(s[..4]);
    assert s == s[..4] + "-" + m + "-" + dd by {
      assert s == s[..4] + [s[4]] + s[5..p] + [s[p]] + s[p + 1..];
    }
  }

  lemma MonthSpelled(s: string, i: nat)
    requires MonthAt(s, i).Some?
    ensures var f := MonthAt(s, i).value;
      i + f.width <= |s| && s[i..i + f.width] in MonthSpellings(f.value)
  {
    var f := MonthAt(s, i).value;
    if f.width == 2 {
      TwoDigitField(f.value, s[i], s[i + 1]);
      assert s[i..i + 2] == [s[i], s[i + 1]];
    } else {
      assert s[i..i + 1] == [DigitChar(f.value)];
    }
  }

  lemma DaySpelled(s: string, i: nat)
    requires DayAt(s, i).Some?
    ensures var f := DayAt(s, i).value;
      i + f.width <= |s| && s[i..i + f.width] in DaySpellings(f.value)
  {
    var f := DayAt(s, i).value;
    if f.width == 2 {
      assert s[i..i + 2] == [s[i], s[i + 1]];
      if s[i] == ' ' {
        assert s[i..i + 2] == [' ', DigitChar(f.value)];
      } else {
        TwoDigitField(f.value, s[i], s[i + 1]);
      }
    } else {
      assert s[i..i + 1] == [DigitChar(f.value)];
    }
  }

  /** Dates the calendar does not have are refused: February 29 of a
      common year, and year 0. */
  lemma ParseRejectsMissingDates()
    ensures ParseYmd("2023-02-29") == None
    ensures ParseYmd("0000-01-01") == None
  {
    assert "2023"[..3] == "202" && "202"[..2] == "20" && "20"[..1] == "2" && "2"[..0] == "";
    assert ValueOf("2023") == 2023;
    assert "0000"[..3] == "000" && "000"[..2] == "00" && "00"[..1] == "0" && "0"[..0] == "";
    assert ValueOf("0000") == 0;
    assert "2023-02-29"[..4] == "2023";
    assert "0000-01-01"[..4] == "0000";
  }

  /** A month above 12 or a day above 31 does not match the pattern, and
      neither does a string with characters after the day ("unconverted data
      remains") or an empty one. */
  lemma ParseRejectsMalformed()
    ensures ParseYmd("2024-13-01") == None
    ensures ParseYmd("2024-01-32") == None
    ensures ParseYmd("2024-01-01T00:00:00") == None
    ensures ParseYmd("") == None
  {
  }

  /** `<=` on dates is a total order, and `<` is its strict part. */
  lemma LessEqTotalOrder(a: Date, b: Date, c: Date)
    ensures LessEq(a, b) <==> !Before(b, a)
    ensures LessEq(a, a)
    ensures LessEq(a, b) || LessEq(b, a)
    ensures LessEq(a, b) && LessEq(b, a) ==> a == b
    ensures LessEq(a, b) && LessEq(b, c) ==> LessEq(a, c)
  {
  }
}

=== FILE: naming.dfy ===
/** Names produced by `process_csv` in main.py: the output file name built
    from the dataset's title and identifier, and the renamed column headers. */
module Naming {
  import opened Wrappers
  import opened SnakeCase

  /** `f"{to_snake_case(title)}-{identifier}.csv"`. The first `-` of the
      name ends the normalised title, so the name reads back as its parts. */
  function OutputName(title: string, identifier: string): (r: string)
    ensures SplitName(r) == Some((Snake(title), identifier))
  {
    SplitJoined(Snake(title), identifier);
    Snake(title) + "-" + identifier + ".csv"
  }

  /** The position of the first occurrence of `c` in `s`. */
  function IndexOf(s: string, c: char): (r: Option<nat>)
    ensures r.None? <==> c !in s
    ensures r.Some? ==> r.value < |s| && s[r.value] == c && c !in s[..r.value]
    decreases |s|
  {
    if |s| == 0 then None
    else if s[0] == c then Some(0)
    else match IndexOf(s[1..], c)
      case None => None
      case Some(k) =>
        assert s[..k + 1] == [s[0]] + s[1..][..k];
        Some(k + 1)
  }

  /** Reads a file name back as (normalised title, identifier): the title part
      ends at the first `-`, the identifier runs up to the `.csv` suffix. */
  function SplitName(name: string): Option<(string, string)> {
    if |name| < 4 || name[|name| - 4..] != ".csv" then None
    else
      var stem := name[..|name| - 4];
      match IndexOf(stem, '-')
      case None => None
      case Some(k) => Some((stem[..k], stem[k + 1..]))
  }

  /** `SplitName` inverts the joining of a title part without `-` and an
      identifier. */
  lemma SplitJoined(s: string, identifier: string)
    requires '-' !in s
    ensures SplitName(s + "-" + identifier + ".csv") == Some((s, identifier))
  {
    var name := s + "-" + identifier + ".csv";
    var stem := s + "-" + identifier;
    assert name == stem + ".csv";
    assert name[|name| - 4..] == ".csv";
    assert name[..|name| - 4] == stem;
    assert stem[..|s|] == s;
    assert stem[|s|] == '-';
    assert IndexOf(stem, '-') == Some(|s|);
    assert stem[|s| + 1..] == identifier;
  }

  /** Two tasks write the same file exactly when their normalised titles and
      their identifiers agree. */
  lemma OutputNameInjective(t1: string, i1: string, t2: string, i2: string)
    ensures OutputName(t1, i1) == OutputName(t2, i2) <==> Snake(t1) == Snake(t2) && i1 == i2
  {
  }

  /** `df.rename(columns={col: to_snake_case(col) for col in df.columns})`. */
  function RenameColumns(headers: seq<string>): (r: seq<string>)
    ensures |r| == |headers|
    ensures forall i :: 0 <= i < |r| ==> r[i] == Join(Words(Lower(headers[i])))
    ensures forall i :: 0 <= i < |r| ==> Canonical(r[i])
  {
    seq(|headers|, i requires 0 <= i < |headers| => Snake(headers[i]))
  }

  /** Renaming the columns of an already written file changes nothing. */
  lemma RenameColumnsIdempotent(headers: seq<string>)
    ensures RenameColumns(RenameColumns(headers)) == RenameColumns(headers)
  {
    forall i | 0 <= i < |headers|
      ensures Snake(Snake(headers[i])) == Snake(headers[i])
    {
      SnakeIdempotent(headers[i]);
    }
  }

  /** Renaming may make two columns share a name: headers that differ only in
      case collide, and the source does nothing about it. */
  lemma RenameColumnsCanCollide(h: string)
    ensures var r := RenameColumns([h, Lower(h)]); r[0] == r[1]
  {
    SnakeOfLowerIsSnake(h);
  }
}

=== FILE: pipeline.dfy ===
/** One run of `main` in main.py: load the metadata, select the changed
    datasets, hand them to the worker pool, commit the watermarks. The HTTP
    fetch of the catalog, the downloads and the file writes are not modelled;
    the catalog is an input and each download's success is an input bit. */
module Pipeline {
  import opened Wrappers
  import opened Dates
  import opened Selector
  import opened Checkpoint
  import opened Naming

  /** What a run decides: its tasks, handed to the pool, and the metadata it
      saves (`None` for the early return that saves nothing). */
  datatype RunResult = RunResult(tasks: seq<Task>, saved: Option<Metadata>)

  /** `main()`, given the loaded metadata, the fetched catalog and the value
      each `process_csv` call returned (`outcomes[i]` for `tasks[i]`). */
  function Run(catalog: seq<Dataset>, metadata: Metadata, outcomes: seq<bool>): (r: RunResult)
    requires |outcomes| == |Select(catalog, metadata)|
    ensures r.saved.None? <==> r.tasks == []
  {
    var tasks := Select(catalog, metadata);
    RunResult(tasks, Commit(metadata, tasks, outcomes))
  }

  /** The metadata the next run loads: what was saved, or the old file when
      nothing was saved. */
  function After(metadata: Metadata, r: RunResult): Metadata {
    r.saved.GetOr(metadata)
  }

  // ---------------------------------------------------------------------
  // Re-running

  /** The decision for a dataset after the identifiers in `keys` were
      recorded: recorded datasets drop out, the others stay as they were. */
  function Unless(decision: Option<Task>, keys: set<string>): Option<Task> {
    match decision
    case Some(t) => if t.identifier in keys then None else decision
    case None => None
  }

  /** A dataset whose own date was just recorded as its watermark is not
      selected again: the watermark reads back as the same date, and `<=`
      holds. */
  lemma NotReselectedAfterOwnDate(ds: Dataset, metadata: Metadata, date: Date)
    requires ModifiedOn(ds, date)
    requires Get(metadata, ds.identifier) == Some(IsoFormat(date))
    ensures Decide(ds, metadata) == None
  {
    ParseIsoFormat(date);
    assert |IsoFormat(date)| == 10;
    LessEqTotalOrder(date, date, date);
  }

  lemma InIds(ts: seq<Task>, t: Task)
    requires t in ts
    ensures t.identifier in Ids(ts)
  {
    var n :| 0 <= n < |ts| && ts[n] == t;
  }

  /** The effect on one dataset of recording the selected tasks whose
      identifiers are in `keys`. */
  lemma RecordEffectOnDataset(catalog: seq<Dataset>, metadata: Metadata, keys: set<string>, i: int)
    requires UniqueIds(catalog) && 0 <= i < |catalog|
    ensures var sel := Select(catalog, metadata);
      Decide(catalog[i], Record(metadata, KeepIds(sel, keys))) == Unless(Decide(catalog[i], metadata), keys)
  {
    var sub := KeepIds(Select(catalog, metadata), keys);
    if catalog[i].identifier in Ids(sub) {
      RecordedDatasetDropsOut(catalog, metadata, keys, i);
    } else {
      UnrecordedDatasetUnchanged(catalog, metadata, keys, i);
    }
  }

  /** A dataset whose task was recorded is not selected against the new
      metadata, and its old decision was dropped by `Unless`. */
  lemma RecordedDatasetDropsOut(catalog: seq<Dataset>, metadata: Metadata, keys: set<string>, i: int)
    requires UniqueIds(catalog) && 0 <= i < |catalog|
    requires catalog[i].identifier in Ids(KeepIds(Select(catalog, metadata), keys))
    ensures Decide(catalog[i], Record(metadata, KeepIds(Select(catalog, metadata), keys))) == None
    ensures Unless(Decide(catalog[i], metadata), keys) == None
  {
    var sel := Select(catalog, metadata);
    var sub := KeepIds(sel, keys);
    var ds := catalog[i];
    SelectUniqueIds(catalog, metadata);
    var n :| 0 <= n < |sub| && sub[n].identifier == ds.identifier;
    var u := sub[n];
    assert u in sel && u.identifier in keys;
    var k :| 0 <= k < |sel| && sel[k] == u;
    var j := SelectSource(catalog, metadata, k);
    assert j == i;
    assert IsLastWrite(sub, n);
    RecordLastWrite(metadata, sub, n);
    NotReselectedAfterOwnDate(ds, Record(metadata, sub), u.modified);
  }

  /** A dataset whose task was not recorded sees its own metadata entry
      unchanged, so its decision stands unless it was among `keys`. */
  lemma UnrecordedDatasetUnchanged(catalog: seq<Dataset>, metadata: Metadata, keys: set<string>, i: int)
    requires 0 <= i < |catalog|
    requires catalog[i].identifier !in Ids(KeepIds(Select(catalog, metadata), keys))
    ensures Decide(catalog[i], Record(metadata, KeepIds(Select(catalog, metadata), keys)))
      == Unless(Decide(catalog[i], metadata), keys)
  {
    var sel := Select(catalog, metadata);
    var sub := KeepIds(sel, keys);
    var ds := catalog[i];
    RecordKeeps(metadata, sub, ds.identifier);
    DecideReadsOwnKey(ds, Record(metadata, sub), metadata);
    if Decide(ds, metadata).Some? {
      var t := Decide(ds, metadata).value;
      SelectComplete(catalog, metadata, i);
      if t.identifier in keys {
        assert t in sub;
        InIds(sub, t);
      }
    }
  }

  /** Selecting against metadata that changes each decision by `Unless`
      drops exactly those tasks with identifiers in `keys`. */
  lemma {:induction false} SelectUnless(catalog: seq<Dataset>, m: Metadata, m': Metadata, keys: set<string>)
    requires forall i :: 0 <= i < |catalog| ==> Decide(catalog[i], m') == Unless(Decide(catalog[i], m), keys)
    ensures Select(catalog, m') == DropIds(Select(catalog, m), keys)
    decreases |catalog|
  {
    if |catalog| > 0 {
      var tail := catalog[1..];
      assert forall i :: 0 <= i < |tail| ==> tail[i] == catalog[i + 1];
      SelectUnless(tail, m, m', keys);
      match Decide(catalog[0], m)
      case None =>
      case Some(t) =>
        assert ([t] + Select(tail, m))[1..] == Select(tail, m);
    }
  }

  /** Re-running after recording those tasks with identifiers in `keys`
      selects exactly the other tasks of the first run. */
  lemma RerunAfterRecord(catalog: seq<Dataset>, metadata: Metadata, keys: set<string>)
    requires UniqueIds(catalog)
    ensures var sel := Select(catalog, metadata);
      Select(catalog, Record(metadata, KeepIds(sel, keys))) == DropIds(sel, keys)
  {
    var sel := Select(catalog, metadata);
    forall i | 0 <= i < |catalog|
      ensures Decide(catalog[i], Record(metadata, KeepIds(sel, keys))) == Unless(Decide(catalog[i], metadata), keys)
    {
      RecordEffectOnDataset(catalog, metadata, keys, i);
    }
    SelectUnless(catalog, metadata, Record(metadata, KeepIds(sel, keys)), keys);
  }

  /** Running twice against an unchanged catalog: the second run selects
      nothing, whatever the first run's downloads did. */
  lemma RerunSelectsNothing(catalog: seq<Dataset>, metadata: Metadata, outcomes: seq<bool>)
    requires UniqueIds(catalog)
    requires |outcomes| == |Select(catalog, metadata)|
    ensures Select(catalog, After(metadata, Run(catalog, metadata, outcomes))) == []
  {
    var sel := Select(catalog, metadata);
    if |sel| > 0 {
      KeepAllIds(sel, Ids(sel));
      RerunAfterRecord(catalog, metadata, Ids(sel));
      var rest := DropIds(sel, Ids(sel));
      if |rest| > 0 {
        assert rest[0] in rest;
        InIds(sel, rest[0]);
      }
    }
  }

  /** With the commit that records only successful downloads, the next run
      retries exactly the downloads that failed, in catalog order. */
  lemma RerunRetriesFailures(catalog: seq<Dataset>, metadata: Metadata, outcomes: seq<bool>)
    requires UniqueIds(catalog)
    requires |outcomes| == |Select(catalog, metadata)| && |outcomes| > 0
    ensures var sel := Select(catalog, metadata);
      Select(catalog, CommitSuccesses(metadata, sel, outcomes).value) == Failures(sel, outcomes)
  {
    var sel := Select(catalog, metadata);
    SelectUniqueIds(catalog, metadata);
    var keys := SucceededIds(sel, outcomes);
    SucceededIdsMatchOutcomes(sel, outcomes);
    SplitByOutcome(sel, outcomes, keys);
    RecordSuccessesIsRecordOfSuccesses(metadata, sel, outcomes);
    RerunAfterRecord(catalog, metadata, keys);
  }

  /** Without distinct identifiers the re-run promise fails: when two catalog
      entries share an identifier and both are selected, the later entry's
      date is the one saved, and if it is the older one the newer entry is
      selected again on the next run. */
  lemma DuplicateIdsDefeatRerun(ds1: Dataset, ds2: Dataset, metadata: Metadata, outcomes: seq<bool>)
    requires ds1.identifier == ds2.identifier
    requires Decide(ds1, metadata).Some? && Decide(ds2, metadata).Some?
    requires Before(Decide(ds2, metadata).value.modified, Decide(ds1, metadata).value.modified)
    requires |outcomes| == 2
    ensures Select([ds1, ds2], After(metadata, Run([ds1, ds2], metadata, outcomes)))
      == [Decide(ds1, metadata).value]
  {
    var t2 := Decide(ds2, metadata).value;
    var after := After(metadata, Run([ds1, ds2], metadata, outcomes));
    LaterDuplicateWins(ds1, ds2, metadata, outcomes);
    ReselectedAfterOlderWatermark(ds1, metadata, after, t2.modified);
    NotReselectedAfterOwnDate(ds2, after, t2.modified);
    SelectPair(ds1, ds2, after);
  }

  /** When two selected entries share an identifier, the saved watermark is
      the date of the later one. */
  lemma LaterDuplicateWins(ds1: Dataset, ds2: Dataset, metadata: Metadata, outcomes: seq<bool>)
    requires ds1.identifier == ds2.identifier
    requires Decide(ds1, metadata).Some? && Decide(ds2, metadata).Some?
    requires |outcomes| == 2
    ensures Get(After(metadata, Run([ds1, ds2], metadata, outcomes)), ds1.identifier)
      == Some(IsoFormat(Decide(ds2, metadata).value.modified))
  {
    SelectPair(ds1, ds2, metadata);
    RecordPairLastWins(metadata, Decide(ds1, metadata).value, Decide(ds2, metadata).value);
  }

  /** The selection from a two-entry catalog. */
  lemma SelectPair(ds1: Dataset, ds2: Dataset, metadata: Metadata)
    ensures Select([ds1, ds2], metadata) ==
      Select([ds1], metadata) + Select([ds2], metadata)
    ensures Select([ds1], metadata) == if Decide(ds1, metadata).Some? then [Decide(ds1, metadata).value] else []
    ensures Select([ds2], metadata) == if Decide(ds2, metadata).Some? then [Decide(ds2, metadata).value] else []
  {
    assert [ds1, ds2] == [ds1] + [ds2];
    SelectAppend([ds1], [ds2], metadata);
    SelectSingle(ds1, metadata);
    SelectSingle(ds2, metadata);
  }

  /** A selected dataset is selected again when its stored watermark is
      replaced by a strictly older date. */
  lemma ReselectedAfterOlderWatermark(ds: Dataset, m: Metadata, m': Metadata, w: Date)
    requires Decide(ds, m).Some?
    requires Get(m', ds.identifier) == Some(IsoFormat(w))
    requires Before(w, Decide(ds, m).value.modified)
    ensures Decide(ds, m') == Decide(ds, m)
  {
    var t := Decide(ds, m).value;
    ParseIsoFormat(w);
    assert |IsoFormat(w)| == 10;
    LessEqTotalOrder(t.modified, w, w);
    assert Decide(ds, m') == Emit(ds, t.modified);
    assert Decide(ds, m) == Emit(ds, t.modified);
  }

  // ---------------------------------------------------------------------
  // Output files

  /** With distinct identifiers, all tasks of a run get distinct file names.
      Directories and the file system's case handling are not modelled. */
  lemma OutputNamesDistinct(catalog: seq<Dataset>, metadata: Metadata)
    requires UniqueIds(catalog)
    ensures var sel := Select(catalog, metadata);
      forall i, j :: 0 <= i < j < |sel| ==>
        OutputName(sel[i].title, sel[i].identifier) != OutputName(sel[j].title, sel[j].identifier)
  {
    var sel := Select(catalog, metadata);
    SelectUniqueIds(catalog, metadata);
    forall i, j | 0 <= i < j < |sel|
      ensures OutputName(sel[i].title, sel[i].identifier) != OutputName(sel[j].title, sel[j].identifier)
    {
      OutputNameInjective(sel[i].title, sel[i].identifier, sel[j].title, sel[j].identifier);
    }
  }

  // ---------------------------------------------------------------------
  // Worked cases

  const HospitalDataset := Dataset("A", Some("General Info"), ["Hospitals"], Some("2024-03-01"),
                                   [Distribution(Some(CsvType), "https://example.org/a.csv")])

  const HospitalTask := Task("https://example.org/a.csv", "A", Ymd(2024, 3, 1), "General Info")

  /** A hospital dataset modified on 2024-03-01 with one CSV distribution and
      no stored watermark is downloaded once; the run saves its date, whatever
      the download did, and the next run selects nothing. */
  lemma HospitalDatasetScenario(outcome: bool)
    ensures Select([HospitalDataset], map[]) == [HospitalTask]
    ensures Run([HospitalDataset], map[], [outcome]).saved == Some(map["A" := "2024-03-01"])
    ensures Select([HospitalDataset], map["A" := "2024-03-01"]) == []
  {
    HospitalDatasetSelected();
    SelectSingle(HospitalDataset, map[]);
    HospitalDatasetSaved(outcome);
    HospitalDatasetNotRerun();
  }

  lemma HospitalDatasetSaved(outcome: bool)
    requires Select([HospitalDataset], map[]) == [HospitalTask]
    ensures Run([HospitalDataset], map[], [outcome]).saved == Some(map["A" := "2024-03-01"])
  {
    RecordOne(map[], HospitalTask);
    IsoFormatExample();
  }

  lemma HospitalDatasetNotRerun()
    ensures Select([HospitalDataset], map["A" := "2024-03-01"]) == []
  {
    IsoFormatExample();
    ParseIsoFormat(Ymd(2024, 3, 1));
    NotReselectedAfterOwnDate(HospitalDataset, map["A" := "2024-03-01"], Ymd(2024, 3, 1));
    SelectSingle(HospitalDataset, map["A" := "2024-03-01"]);
  }

  lemma HospitalDatasetSelected()
    ensures Decide(HospitalDataset, map[]) == Some(HospitalTask)
  {
    var a := HospitalDataset;
    var date: Date := Ymd(2024, 3, 1);
    IsoFormatExample();
    ParseIsoFormat(date);
    assert OccursAt(Topic, a.themes[0], 0);
    assert ModifiedOn(a, date);
    assert IsCsv(a.distributions[0]);
    var task := Decide(a, map[]).value;
    assert IsFirstCsvUrl(a.distributions, "https://example.org/a.csv");
    FirstCsvUrlUnique(a.distributions, task.url, "https://example.org/a.csv");
  }

  /** A dataset whose only theme is "Payments" is never selected, whatever
      the metadata holds. */
  lemma PaymentsDatasetNeverSelected(ds: Dataset, metadata: Metadata)
    requires ds.themes == ["Payments"]
    ensures Select([ds], metadata) == []
  {
    assert !Contains(ds.themes[0], Topic);
    SelectSingle(ds, metadata);
  }
}

=== FILE: selector.dfy ===
/** The change selector: the loop of `main` in main.py that walks the catalog
    and builds `to_download`, the list of `(url, identifier, modified_date,
    title)` entries to fetch in this run. The loop only reads the metadata, so
    it is a pure function of the catalog and the metadata. */
module Selector {
  import opened Wrappers
  import opened Dates

  /** One entry of a dataset's `distribution` list. `mediaType` may be
      missing (`dist.get("mediaType")` is `None`). */
  datatype Distribution = Distribution(mediaType: Option<string>, downloadURL: string)

  /** One catalog entry. A missing `theme` or `distribution` key reads as the
      empty list, so those are plain sequences; `title` and `modified` may be
      missing. */
  datatype Dataset = Dataset(
    identifier: string,
    title: Option<string>,
    themes: seq<string>,
    modified: Option<string>,
    distributions: seq<Distribution>)

  /** One entry of `to_download`. */
  datatype Task = Task(url: string, identifier: string, modified: Date, title: string)

  /** The checkpoint read from `metadata.json`: identifier to watermark. */
  type Metadata = map<string, string>

  const Topic := "Hospitals"
  const CsvType := "text/csv"
  const DefaultTitle := "untitled"

  // ---------------------------------------------------------------------
  // Theme filter

  /** `p` occurs in `t` at index `i`. */
  predicate OccursAt(p: string, t: string, i: nat) {
    i + |p| <= |t| && t[i..i + |p|] == p
  }

  /** Python's substring test `p in t`. */
  function Contains(t: string, p: string): (r: bool)
    ensures r <==> exists i: nat :: OccursAt(p, t, i)
    decreases |t|
  {
    if |t| < |p| then false
    else if t[..|p|] == p then (assert OccursAt(p, t, 0); true)
    else (OccursShift(p, t); Contains(t[1..], p))
  }

  lemma OccursShift(p: string, t: string)
    requires |t| > 0
    ensures forall i: nat :: OccursAt(p, t[1..], i) <==> OccursAt(p, t, i + 1)
    ensures !OccursAt(p, t, 0) ==> ((exists i: nat :: OccursAt(p, t, i)) <==> exists i: nat :: OccursAt(p, t[1..], i))
  {
    forall i: nat | OccursAt(p, t, i) && i > 0
      ensures OccursAt(p, t[1..], i - 1)
    {
      assert t[1..][i - 1..i - 1 + |p|] == t[i..i + |p|];
    }
    forall i: nat | OccursAt(p, t[1..], i)
      ensures OccursAt(p, t, i + 1)
    {
      assert t[1..][i..i + |p|] == t[i + 1..i + 1 + |p|];
    }
  }

  /** Some theme contains "Hospitals" as a case-sensitive substring. */
  ghost predicate HasTopicTheme(themes: seq<string>) {
    exists j, i :: 0 <= j < |themes| && 0 <= i && OccursAt(Topic, themes[j], i)
  }

  /** `any("Hospitals" in theme for theme in themes)`. */
  function AnyThemeMatches(themes: seq<string>): (r: bool)
    ensures r <==> HasTopicTheme(themes)
    decreases |themes|
  {
    if |themes| == 0 then false
    else if Contains(themes[0], Topic) then true
    else
      var r := AnyThemeMatches(themes[1..]);
      assert r ==> HasTopicTheme(themes) by {
        if r {
          var j, i :| 0 <= j < |themes[1..]| && 0 <= i && OccursAt(Topic, themes[1..][j], i);
          assert OccursAt(Topic, themes[j + 1], i);
        }
      }
      assert HasTopicTheme(themes) ==> r by {
        if HasTopicTheme(themes) {
          var j, i :| 0 <= j < |themes| && 0 <= i && OccursAt(Topic, themes[j], i);
          assert j > 0;
          assert OccursAt(Topic, themes[1..][j - 1], i);
        }
      }
      r
  }

  // ---------------------------------------------------------------------
  // Distribution choice

  predicate IsCsv(d: Distribution) {
    d.mediaType == Some(CsvType)
  }

  /** `url` is the download URL of the first CSV distribution of `ds`. */
  ghost predicate IsFirstCsvUrl(ds: seq<Distribution>, url: string) {
    exists i :: 0 <= i < |ds| && IsCsv(ds[i]) && ds[i].downloadURL == url
      && forall j :: 0 <= j < i ==> !IsCsv(ds[j])
  }

  /** The inner loop over `distribution`, stopping at the first CSV. */
  function FirstCsvUrl(ds: seq<Distribution>): (r: Option<string>)
    ensures r.None? <==> forall i :: 0 <= i < |ds| ==> !IsCsv(ds[i])
    ensures r.Some? ==> IsFirstCsvUrl(ds, r.value)
    decreases |ds|
  {
    if |ds| == 0 then None
    else if IsCsv(ds[0]) then (assert IsFirstCsvUrl(ds, ds[0].downloadURL); Some(ds[0].downloadURL))
    else
      var r := FirstCsvUrl(ds[1..]);
      assert r.Some? ==> IsFirstCsvUrl(ds, r.value) by {
        if r.Some? {
          var i :| 0 <= i < |ds[1..]| && IsCsv(ds[1..][i]) && ds[1..][i].downloadURL == r.value
            && forall j :: 0 <= j < i ==> !IsCsv(ds[1..][j]);
          assert forall j :: 1 <= j < i + 1 ==> ds[j] == ds[1..][j - 1];
        }
      }
      assert forall i :: 1 <= i < |ds| ==> ds[i] == ds[1..][i - 1];
      r
  }

  /** There is at most one first CSV distribution. */
  lemma FirstCsvUrlUnique(ds: seq<Distribution>, u1: string, u2: string)
    requires IsFirstCsvUrl(ds, u1) && IsFirstCsvUrl(ds, u2)
    ensures u1 == u2
  {
    var i1 :| 0 <= i1 < |ds| && IsCsv(ds[i1]) && ds[i1].downloadURL == u1
      && forall j :: 0 <= j < i1 ==> !IsCsv(ds[j]);
    var i2 :| 0 <= i2 < |ds| && IsCsv(ds[i2]) && ds[i2].downloadURL == u2
      && forall j :: 0 <= j < i2 ==> !IsCsv(ds[j]);
    assert i1 == i2;
  }

  // ---------------------------------------------------------------------
  // One catalog entry

  /** The watermark that counts for an identifier: `metadata.get(identifier)`,
      with an empty string treated like a missing one (`if last_modified_str:`). */
  function StoredWatermark(metadata: Metadata, identifier: string): Option<string> {
    match Get(metadata, identifier)
    case Some(w) => if w == "" then None else Some(w)
    case None => None
  }

  /** The stored watermark lets a dataset modified on `date` through: there is
      none, or it names a date strictly earlier than `date`. */
  predicate WatermarkAdmits(stored: Option<string>, date: Date) {
    stored.None? || (ParseYmd(stored.value).Some? && Before(ParseYmd(stored.value).value, date))
  }

  /** The date the catalog gives for a dataset, when it has a non-empty
      `modified` that parses. */
  predicate ModifiedOn(ds: Dataset, date: Date) {
    ds.modified.Some? && ds.modified.value != "" && ParseYmd(ds.modified.value) == Some(date)
  }

  function TitleOf(ds: Dataset): string {
    ds.title.GetOr(DefaultTitle)
  }

  /** What one iteration of the catalog loop appends to `to_download`:
      nothing, or one entry. */
  function Decide(ds: Dataset, metadata: Metadata): (r: Option<Task>)
    // Theme filter: some theme contains "Hospitals".
    ensures r.Some? ==> HasTopicTheme(ds.themes)
    // Date requirements: `modified` is present, non-empty and parses.
    ensures r.Some? ==> ModifiedOn(ds, r.value.modified)
    // Watermark filter: the stored date, if any, parses and is strictly older.
    ensures r.Some? ==> WatermarkAdmits(StoredWatermark(metadata, ds.identifier), r.value.modified)
    // Distribution choice and the remaining fields.
    ensures r.Some? ==> IsFirstCsvUrl(ds.distributions, r.value.url)
    ensures r.Some? ==> r.value.identifier == ds.identifier && r.value.title == TitleOf(ds)
    // Conversely, a dataset meeting every condition is emitted.
    ensures HasTopicTheme(ds.themes)
      && (exists date: Date :: ModifiedOn(ds, date)
            && WatermarkAdmits(StoredWatermark(metadata, ds.identifier), date))
      && (exists k :: 0 <= k < |ds.distributions| && IsCsv(ds.distributions[k]))
      ==> r.Some?
  {
    if !AnyThemeMatches(ds.themes) then None
    else match ds.modified
      case None => None
      case Some(modifiedStr) =>
        if modifiedStr == "" then None
        else match ParseYmd(modifiedStr)
          case None => None
          case Some(date) =>
            var stored := Get(metadata, ds.identifier);
            if stored.Some? && stored.value != "" then
              match ParseYmd(stored.value)
              case None => None
              case Some(last) => if LessEq(date, last) then None else Emit(ds, date)
            else Emit(ds, date)
  }

  /** The distribution loop: the first CSV distribution, if any, as a task. */
  function Emit(ds: Dataset, date: Date): Option<Task> {
    match FirstCsvUrl(ds.distributions)
    case None => None
    case Some(url) => Some(Task(url, ds.identifier, date, TitleOf(ds)))
  }

  /** The list `to_download` built by the loop over the catalog. Which
      entries it holds is stated by `SelectSource` and `SelectComplete`. */
  function Select(catalog: seq<Dataset>, metadata: Metadata): (r: seq<Task>)
    ensures |r| <= |catalog|
    decreases |catalog|
  {
    if |catalog| == 0 then []
    else
      var rest := Select(catalog[1..], metadata);
      match Decide(catalog[0], metadata)
      case None => rest
      case Some(t) => [t] + rest
  }

  /** Every entry of the list comes from one catalog dataset that the loop
      body emits; `i` is that dataset's position. */
  lemma {:induction false} SelectSource(catalog: seq<Dataset>, metadata: Metadata, k: int) returns (i: int)
    requires 0 <= k < |Select(catalog, metadata)|
    ensures 0 <= i < |catalog| && Decide(catalog[i], metadata) == Some(Select(catalog, metadata)[k])
    decreases |catalog|
  {
    var k' := SelectStep(catalog, metadata, k);
    if k' < 0 {
      i := 0;
    } else {
      var tail := catalog[1..];
      var j := SelectSource(tail, metadata, k');
      assert catalog[j + 1] == tail[j];
      i := j + 1;
    }
  }

  /** One step of the loop: entry `k` of the list is emitted by the first
      dataset (`k' < 0`), or is entry `k'` of the rest of the list. */
  lemma SelectStep(catalog: seq<Dataset>, metadata: Metadata, k: int) returns (k': int)
    requires 0 <= k < |Select(catalog, metadata)|
    ensures k' < 0 ==> Decide(catalog[0], metadata) == Some(Select(catalog, metadata)[k])
    ensures k' >= 0 ==> k' < |Select(catalog[1..], metadata)| && Select(catalog, metadata)[k] == Select(catalog[1..], metadata)[k']
  {
    var d := Decide(catalog[0], metadata);
    k' := if d.Some? then k - 1 else k;
  }

  /** Every task the loop body emits for a catalog dataset is in the list. */
  lemma {:induction false} SelectComplete(catalog: seq<Dataset>, metadata: Metadata, i: int)
    requires 0 <= i < |catalog| && Decide(catalog[i], metadata).Some?
    ensures Decide(catalog[i], metadata).value in Select(catalog, metadata)
    decreases |catalog|
  {
    if i > 0 {
      assert catalog[i] == catalog[1..][i - 1];
      SelectComplete(catalog[1..], metadata, i - 1);
    }
  }

  // ---------------------------------------------------------------------
  // Properties of the selection

  /** The list follows catalog order: selecting from a concatenation is
      concatenating the selections. */
  lemma {:induction false} SelectAppend(a: seq<Dataset>, b: seq<Dataset>, metadata: Metadata)
    ensures Select(a + b, metadata) == Select(a, metadata) + Select(b, metadata)
    decreases |a|
  {
    if |a| > 0 {
      assert (a + b)[1..] == a[1..] + b;
      SelectAppend(a[1..], b, metadata);
    } else {
      assert a + b == b;
    }
  }

  /** A single dataset contributes its decision: one entry or none. */
  lemma SelectSingle(ds: Dataset, metadata: Metadata)
    ensures Select([ds], metadata) == match Decide(ds, metadata)
      case None => []
      case Some(t) => [t]
  {
    assert [ds][1..] == [];
  }

  /** The decision for a dataset reads only the metadata under its own
      identifier. */
  lemma DecideReadsOwnKey(ds: Dataset, m1: Metadata, m2: Metadata)
    requires Get(m1, ds.identifier) == Get(m2, ds.identifier)
    ensures Decide(ds, m1) == Decide(ds, m2)
  {
  }

  /** A dataset none of whose themes contains "Hospitals" (for instance one
      with no themes) contributes nothing: the selection is the same without it. */
  lemma NoTopicContributesNothing(catalog: seq<Dataset>, metadata: Metadata, i: int)
    requires 0 <= i < |catalog|
    requires !HasTopicTheme(catalog[i].themes)
    ensures Select(catalog, metadata) == Select(catalog[..i] + catalog[i + 1..], metadata)
  {
    assert catalog == catalog[..i] + ([catalog[i]] + catalog[i + 1..]);
    SelectAppend(catalog[..i], [catalog[i]] + catalog[i + 1..], metadata);
    SelectAppend([catalog[i]], catalog[i + 1..], metadata);
    SelectSingle(catalog[i], metadata);
    SelectAppend(catalog[..i], catalog[i + 1..], metadata);
  }

  /** Identifiers are distinct across the catalog. The source relies on it:
      the metadata is keyed by identifier. */
  predicate UniqueIds(catalog: seq<Dataset>) {
    forall i, j :: 0 <= i < |catalog| && 0 <= j < |catalog| && catalog[i].identifier == catalog[j].identifier ==> i == j
  }

  predicate UniqueTaskIds(tasks: seq<Task>) {
    forall i, j :: 0 <= i < |tasks| && 0 <= j < |tasks| && tasks[i].identifier == tasks[j].identifier ==> i == j
  }

  /** Distinct dataset identifiers give distinct task identifiers. */
  lemma {:induction false} SelectUniqueIds(catalog: seq<Dataset>, metadata: Metadata)
    requires UniqueIds(catalog)
    ensures UniqueTaskIds(Select(catalog, metadata))
    decreases |catalog|
  {
    if |catalog| > 0 {
      var tail := catalog[1..];
      assert UniqueIds(tail) by {
        assert forall i :: 0 <= i < |tail| ==> tail[i] == catalog[i + 1];
      }
      SelectUniqueIds(tail, metadata);
      var rest := Select(tail, metadata);
      forall k | 0 <= k < |rest|
        ensures rest[k].identifier != catalog[0].identifier
      {
        var i := SelectSource(tail, metadata, k);
        assert tail[i] == catalog[i + 1];
      }
      match Decide(catalog[0], metadata)
      case None =>
      case Some(t) => UniqueTaskIdsCons(t, rest);
    }
  }

  lemma UniqueTaskIdsCons(t: Task, rest: seq<Task>)
    requires UniqueTaskIds(rest)
    requires forall k :: 0 <= k < |rest| ==> rest[k].identifier != t.identifier
    ensures UniqueTaskIds([t] + rest)
  {
    var s := [t] + rest;
    assert forall i :: 1 <= i < |s| ==> s[i] == rest[i - 1];
  }
}

=== FILE: snake.dfy ===
/** The label normaliser `to_snake_case` of main.py, on ASCII characters.

    The source applies four steps in a row: lower-case the label, replace every
    maximal run of characters outside `[a-zA-Z0-9]` with `_`, replace every run
    of `_` with a single `_`, and strip `_` from both ends. `Snake` below
    composes the same four steps, and its contract relates the result to an
    independent description: the alphanumeric words of the lower-cased label,
    joined by single underscores. */
module SnakeCase {

  predicate IsUpper(c: char) { 'A' <= c <= 'Z' }

  predicate IsLowerAlnum(c: char) { 'a' <= c <= 'z' || '0' <= c <= '9' }

  /** The character class `[a-zA-Z0-9]`. */
  predicate IsAlnum(c: char) { IsUpper(c) || IsLowerAlnum(c) }

  predicate NotAlnum(c: char) { !IsAlnum(c) }

  predicate IsUnderscore(c: char) { c == '_' }

  function LowerChar(c: char): char {
    if IsUpper(c) then (c as int - 'A' as int + 'a' as int) as char else c
  }

  /** `str.lower`, restricted to the ASCII letters. */
  function Lower(s: string): string {
    seq(|s|, i requires 0 <= i < |s| => LowerChar(s[i]))
  }

  predicate NoUpper(s: string) {
    forall i :: 0 <= i < |s| ==> !IsUpper(s[i])
  }

  lemma LowerHasNoUpper(s: string)
    ensures NoUpper(Lower(s))
  {
  }

  /** `re.sub(C + "+", "_", s)` for a character class `C`: each maximal run
      of characters in the class becomes one `_`. `inRun` records that the
      character just before `s` was in the class, so its run already produced
      its `_`. */
  function SubRuns(s: string, inClass: char -> bool, inRun: bool): string
    decreases |s|
  {
    if |s| == 0 then []
    else if !inClass(s[0]) then [s[0]] + SubRuns(s[1..], inClass, false)
    else if inRun then SubRuns(s[1..], inClass, true)
    else "_" + SubRuns(s[1..], inClass, true)
  }

  /** Step 2 of the source: `re.sub(r"[^a-zA-Z0-9]+", "_", ...)`. */
  function ReplaceNonAlnum(s: string): string {
    SubRuns(s, NotAlnum, false)
  }

  /** Step 3 of the source: `re.sub(r"_+", "_", ...)`. */
  function CollapseUnderscores(s: string): string {
    SubRuns(s, IsUnderscore, false)
  }

  function StripLeft(s: string): (r: string)
    ensures |r| <= |s| && r == s[|s| - |r|..]
    ensures |r| > 0 ==> r[0] != '_'
    decreases |s|
  {
    if |s| > 0 && s[0] == '_' then StripLeft(s[1..]) else s
  }

  function StripRight(s: string): (r: string)
    ensures |r| <= |s| && r == s[..|r|]
    ensures |r| > 0 ==> r[|r| - 1] != '_'
    decreases |s|
  {
    if |s| > 0 && s[|s| - 1] == '_' then StripRight(s[..|s| - 1]) else s
  }

  /** `str.strip("_")`. */
  function Strip(s: string): string {
    StripRight(StripLeft(s))
  }

  /** Length of the longest prefix of `t` made of `[a-zA-Z0-9]`. */
  function AlnumPrefixLen(t: string): (n: nat)
    ensures n <= |t|
    ensures forall i :: 0 <= i < n ==> IsAlnum(t[i])
    ensures n < |t| ==> !IsAlnum(t[n])
    decreases |t|
  {
    if |t| > 0 && IsAlnum(t[0]) then 1 + AlnumPrefixLen(t[1..]) else 0
  }

  /** The maximal runs of `[a-zA-Z0-9]` in `t`, in order. */
  function Words(t: string): (ws: seq<string>)
    ensures forall k :: 0 <= k < |ws| ==> |ws[k]| > 0
    decreases |t|
  {
    if |t| == 0 then []
    else if !IsAlnum(t[0]) then Words(t[1..])
    else
      var n := AlnumPrefixLen(t);
      [t[..n]] + Words(t[n..])
  }

  /** `"_".join(ws)`. */
  function Join(ws: seq<string>): string {
    if |ws| == 0 then ""
    else if |ws| == 1 then ws[0]
    else ws[0] + "_" + Join(ws[1..])
  }

  /** A non-empty word of lower-case letters and digits. */
  predicate IsWord(w: string) {
    |w| > 0 && forall i :: 0 <= i < |w| ==> IsLowerAlnum(w[i])
  }

  /** The shape of every normalised label: only `[a-z0-9_]`, no `_` at either
      end and no two `_` in a row. */
  predicate Canonical(r: string) {
    && (forall i :: 0 <= i < |r| ==> IsLowerAlnum(r[i]) || r[i] == '_')
    && (|r| > 0 ==> r[0] != '_' && r[|r| - 1] != '_')
    && NoDoubleUnderscore(r)
  }

  predicate NoDoubleUnderscore(r: string) {
    forall i :: 0 <= i < |r| - 1 && r[i] == '_' ==> r[i + 1] != '_'
  }

  /** `to_snake_case(name)`. */
  function Snake(s: string): (r: string)
    ensures r == Join(Words(Lower(s)))
    ensures Canonical(r)
    ensures '-' !in r
  {
    LowerHasNoUpper(s);
    SnakeSteps(Lower(s));
    Strip(CollapseUnderscores(ReplaceNonAlnum(Lower(s))))
  }

  /** The four steps of the source, applied to a lower-cased label, give its
      words joined by `_`, which is canonical. */
  lemma SnakeSteps(lowered: string)
    requires NoUpper(lowered)
    ensures Strip(CollapseUnderscores(ReplaceNonAlnum(lowered))) == Join(Words(lowered))
    ensures Canonical(Join(Words(lowered)))
  {
    CollapseIsRedundant(lowered);
    StripLeftSubRuns(lowered, false);
    StripRightWords(lowered);
    WordsAreWords(lowered);
    JoinCanonical(Words(lowered));
  }

  // ---------------------------------------------------------------------
  // Properties of the normaliser

  /** Normalising an already normalised label changes nothing. */
  lemma SnakeFixesCanonical(r: string)
    requires Canonical(r)
    ensures Snake(r) == r
  {
    assert Lower(r) == r;
    CanonicalJoinWords(r);
  }

  /** `to_snake_case` is idempotent. */
  lemma SnakeIdempotent(s: string)
    ensures Snake(Snake(s)) == Snake(s)
  {
    SnakeFixesCanonical(Snake(s));
  }

  /** The `re.sub(r"_+", "_", ...)` step never changes anything: the first
      substitution already leaves no two `_` next to each other. */
  lemma CollapseIsRedundant(s: string)
    ensures CollapseUnderscores(ReplaceNonAlnum(s)) == ReplaceNonAlnum(s)
  {
    var r := ReplaceNonAlnum(s);
    ReplaceLeavesNoDoubleUnderscore(s, false);
    var p: char -> bool := IsUnderscore;
    assert forall i :: 0 <= i < |r| - 1 && p(r[i]) ==> !p(r[i + 1]);
    SubRunsIdentity(r, p, false);
  }

  /** A label and its normal form normalise alike; in particular two labels
      that differ only in letter case give the same name. */
  lemma SnakeOfLowerIsSnake(s: string)
    ensures Snake(Lower(s)) == Snake(s)
  {
    assert Lower(Lower(s)) == Lower(s);
  }

  // ---------------------------------------------------------------------
  // Helper lemmas

  /** `SubRuns` leaves a string unchanged when every class member in it is
      already a lone `_`. */
  lemma {:induction false} SubRunsIdentity(s: string, p: char -> bool, inRun: bool)
    requires forall i :: 0 <= i < |s| && p(s[i]) ==> s[i] == '_'
    requires forall i :: 0 <= i < |s| - 1 && p(s[i]) ==> !p(s[i + 1])
    requires inRun && |s| > 0 ==> !p(s[0])
    ensures SubRuns(s, p, inRun) == s
    decreases |s|
  {
    if |s| > 0 {
      var t := s[1..];
      assert forall i :: 0 <= i < |t| ==> t[i] == s[i + 1];
      SubRunsIdentity(t, p, p(s[0]));
      if p(s[0]) {
        assert s == "_" + t;
      } else {
        assert s == [s[0]] + t;
      }
    }
  }

  /** The output of the first substitution has no `__`, and starts with a
      non-`_` when the input begins inside a run. */
  lemma {:induction false} ReplaceLeavesNoDoubleUnderscore(s: string, inRun: bool)
    ensures NoDoubleUnderscore(SubRuns(s, NotAlnum, inRun))
    ensures inRun && |SubRuns(s, NotAlnum, inRun)| > 0 ==> SubRuns(s, NotAlnum, inRun)[0] != '_'
    decreases |s|
  {
    if |s| > 0 {
      var r := SubRuns(s, NotAlnum, inRun);
      var r' := SubRuns(s[1..], NotAlnum, !IsAlnum(s[0]));
      ReplaceLeavesNoDoubleUnderscore(s[1..], !IsAlnum(s[0]));
      if IsAlnum(s[0]) || !inRun {
        var c := if IsAlnum(s[0]) then s[0] else '_';
        assert r == [c] + r';
        assert forall i :: 1 <= i < |r| ==> r[i] == r'[i - 1];
      }
    }
  }

  /** Stripping leading `_` from a substitution result is the same as
      starting the substitution inside a run. */
  lemma {:induction false} StripLeftSubRuns(t: string, inRun: bool)
    ensures StripLeft(SubRuns(t, NotAlnum, inRun)) == SubRuns(t, NotAlnum, true)
    decreases |t|
  {
    if |t| > 0 && !IsAlnum(t[0]) {
      StripLeftSubRuns(t[1..], true);
      if !inRun {
        var x := SubRuns(t[1..], NotAlnum, true);
        assert ("_" + x)[1..] == x;
      }
    }
  }

  /** An alphanumeric prefix passes through the substitution unchanged. */
  lemma {:induction false} SubRunsAlnumPrefix(t: string, k: nat, inRun: bool)
    requires 1 <= k <= |t|
    requires forall i :: 0 <= i < k ==> IsAlnum(t[i])
    ensures SubRuns(t, NotAlnum, inRun) == t[..k] + SubRuns(t[k..], NotAlnum, false)
    decreases k
  {
    if k > 1 {
      SubRunsAlnumPrefix(t[1..], k - 1, false);
      assert t[1..][..k - 1] == t[1..k];
      assert t[1..][k - 1..] == t[k..];
      assert t[..k] == [t[0]] + t[1..k];
    }
  }

  lemma {:induction false} StripRightAppend(y: string, x: string)
    ensures StripRight(y + x) == if StripRight(x) == [] then StripRight(y) else y + StripRight(x)
    decreases |x|
  {
    if |x| == 0 {
      assert y + x == y;
    } else if x[|x| - 1] == '_' {
      var x' := x[..|x| - 1];
      assert (y + x)[..|y + x| - 1] == y + x';
      StripRightAppend(y, x');
    }
  }

  lemma JoinCons(w: string, ws: seq<string>)
    requires |ws| > 0
    ensures Join([w] + ws) == w + "_" + Join(ws)
  {
    assert ([w] + ws)[1..] == ws;
  }

  lemma {:induction false} JoinOfWordsNonEmpty(ws: seq<string>)
    requires |ws| > 0 && |ws[0]| > 0
    ensures |Join(ws)| > 0
  {
  }

  /** The heart of the reference definition: after the substitution (started
      inside a run), stripping trailing `_` yields the words joined by `_`. */
  lemma {:induction false} StripRightWords(t: string)
    ensures StripRight(SubRuns(t, NotAlnum, true)) == Join(Words(t))
    decreases |t|
  {
    if |t| == 0 {
    } else if !IsAlnum(t[0]) {
      StripRightWords(t[1..]);
    } else {
      var n := AlnumPrefixLen(t);
      var w := t[..n];
      var rest := t[n..];
      SubRunsAlnumPrefix(t, n, true);
      assert Words(t) == [w] + Words(rest);
      if |rest| == 0 {
        assert Words(rest) == [];
        assert SubRuns(rest, NotAlnum, false) == [];
        assert w + [] == w;
        assert StripRight(w) == w;
      } else {
        StripRightWords(rest[1..]);
        StripRightWordThenRest(w, rest);
      }
    }
  }

  /** One step of `StripRightWords`: a word followed by a non-empty rest that
      starts with a separator. */
  lemma StripRightWordThenRest(w: string, rest: string)
    requires |w| > 0 && |rest| > 0 && !IsAlnum(rest[0])
    requires w[|w| - 1] != '_'
    requires StripRight(SubRuns(rest[1..], NotAlnum, true)) == Join(Words(rest[1..]))
    ensures StripRight(w + SubRuns(rest, NotAlnum, false)) == Join([w] + Words(rest))
  {
    var z := SubRuns(rest[1..], NotAlnum, true);
    assert w + SubRuns(rest, NotAlnum, false) == (w + "_") + z by {
      assert SubRuns(rest, NotAlnum, false) == "_" + z;
    }
    assert Words(rest) == Words(rest[1..]);
    StripRightWordThenWords(w, z, Words(rest[1..]));
  }

  lemma StripRightWordThenWords(w: string, z: string, ws: seq<string>)
    requires |w| > 0 && w[|w| - 1] != '_'
    requires forall k :: 0 <= k < |ws| ==> |ws[k]| > 0
    requires StripRight(z) == Join(ws)
    ensures StripRight((w + "_") + z) == Join([w] + ws)
  {
    StripRightAppend(w + "_", z);
    if StripRight(z) == [] {
      assert ws == [] by {
        if ws != [] {
          JoinOfWordsNonEmpty(ws);
        }
      }
      assert StripRight(w + "_") == w by {
        assert (w + "_")[..|w + "_"| - 1] == w;
      }
      assert [w] + ws == [w];
    } else {
      JoinCons(w, ws);
    }
  }

  /** Each word of a string without upper-case letters is a lower-case word. */
  lemma {:induction false} WordsAreWords(t: string)
    requires NoUpper(t)
    ensures forall k :: 0 <= k < |Words(t)| ==> IsWord(Words(t)[k])
    decreases |t|
  {
    if |t| > 0 {
      if !IsAlnum(t[0]) {
        WordsAreWords(t[1..]);
      } else {
        var n := AlnumPrefixLen(t);
        WordsAreWords(t[n..]);
        assert IsWord(t[..n]);
      }
    }
  }

  lemma {:induction false} JoinCanonical(ws: seq<string>)
    requires forall k :: 0 <= k < |ws| ==> IsWord(ws[k])
    ensures Canonical(Join(ws))
  {
    if |ws| > 1 {
      var rest := Join(ws[1..]);
      JoinCanonical(ws[1..]);
      JoinOfWordsNonEmpty(ws[1..]);
      var r := ws[0] + "_" + rest;
      var n := |ws[0]|;
      assert forall i :: 0 <= i < |r| ==> r[i] == (if i < n then ws[0][i] else if i == n then '_' else rest[i - n - 1]);
    }
  }

  /** A canonical string is the join of its own words. */
  lemma {:induction false} CanonicalJoinWords(r: string)
    requires Canonical(r)
    ensures Join(Words(r)) == r
    decreases |r|
  {
    if |r| > 0 {
      var n := AlnumPrefixLen(r);
      var w := r[..n];
      var rest := r[n..];
      assert Words(r) == [w] + Words(rest);
      if |rest| == 0 {
        assert r == w;
      } else {
        var tail := rest[1..];
        CanonicalSplit(r, n);
        CanonicalJoinWords(tail);
        assert Words(rest) == Words(tail) by {
          assert !IsAlnum(rest[0]);
        }
        assert |Words(tail)| > 0 by {
          assert IsAlnum(tail[0]);
        }
        JoinCons(w, Words(tail));
        SplitAt(r, n);
      }
    }
  }

  lemma SplitAt(s: string, n: nat)
    requires n < |s|
    ensures s == s[..n] + [s[n]] + s[n + 1..]
  {
  }

  /** In a canonical string, the first word is followed either by nothing or
      by one `_` and a canonical remainder that starts with a word. */
  lemma CanonicalSplit(r: string, n: nat)
    requires Canonical(r)
    requires n == AlnumPrefixLen(r) < |r|
    ensures n > 0 && n + 1 < |r| && r[n] == '_'
    ensures IsAlnum(r[n + 1]) && Canonical(r[n + 1..])
  {
    var tail := r[n + 1..];
    assert forall i :: 0 <= i < |tail| ==> tail[i] == r[n + 1 + i];
  }
}

=== FILE: wrappers.dfy ===
/** Option type used for values that Python represents by `None` or by an
    exception that the caller catches. */
module Wrappers {

  datatype Option<+T> = None | Some(value: T) {

    /** The value carried by Some, or the given default. */
    function GetOr(default: T): T {
      match this
      case Some(v) => v
      case None => default
    }
  }

  /** Dictionary lookup in the style of Python's `dict.get`. */
  function Get<K, V>(m: map<K, V>, k: K): Option<V> {
    if k in m then Some(m[k]) else None
  }

  /** After `m[k'] = v`, looking up `k'` gives `v` and every other key reads
      as before. */
  lemma GetUpdate<K, V>(m: map<K, V>, k: K, k': K, v: V)
    ensures Get(m[k' := v], k) == if k == k' then Some(v) else Get(m, k)
  {
  }
}
